=== FILE: README.md ===
# EMS core in Dafny

EMS is an employee-monitoring system. A Windows agent watches the foreground
window and uploads activity records, screenshots and heartbeats. A Flask
server stores them in MongoDB and shows dashboards and reports. This project
models the decision logic of both sides as pure Dafny functions over
immutable data, and proves what that logic guarantees:

- **Ingestion gate** (`Api`, server/routes/api.py):
  - the shared-secret check on the agent endpoints;
  - the heartbeat handler;
  - the per-entry validation and normalisation of an activity batch, its
    counters and its outcomes;
  - the screenshot upload: request checks, the sanitised storage key, and the
    clean-up after a failure.
- **Employee store** (`Db`, `Users`): `create_employee` as an operation on a
  map keyed by `employee_id`, the rename that activates an employee, and the
  pending/other split of the user list.
- **Schema set-up** (`Db`): idempotent seeding of the three default categories
  and the create-if-missing collection and index loop of `initialize_db`.
- **Category store** (`Categorization`): add, edit and delete on a map from
  object ids to categories, with the name-uniqueness invariant and the delete
  guards.
- **Reports** (`Reports`): the report date window, the paging arithmetic, the
  two listings, and the file-name guard of the screenshot viewer.
- **Dashboard helpers** (`Dashboard`): `format_seconds` and `get_date_range`.
- **Agent** (`Agent`, agent/agent.py):
  - the foreground-window segmentation step of the activity monitor;
  - the copy-and-clear drain of the activity buffer;
  - the retry policy of `send_data`;
  - the heartbeat interval.

Shared modules:

- `Common`: the `Option` type.
- `Json`: untyped JSON values with Python truthiness and `dict.get`.
- `Text`: decimal and hex digits, zero padding, Python's `str.strip`, and
  substring search.
- `Calendar`: proleptic Gregorian dates as day numbers, `weekday()`, and
  instants as UTC microseconds.
- `Entities`: employees, log documents, categories, rule references, and
  24-hex-digit object ids.

Conventions:

- The environment becomes parameters. A handler that reads `datetime.now()` once takes a `DateTime` argument. Default-category seeding takes a `Db.Clock`, a function from reading number to `DateTime`, because it reads the clock twice per category. The agent takes its clock readings as integer microseconds.
  `fromisoformat` and `strptime` are partial functions passed in. `isalnum`
  is a predicate passed in. `uuid4().hex[:8]` is an argument of type
  `HexSuffix`.
- Storage failures are injected fault arguments: a raising `insert_one`,
  `update_one` or `create_index`, a partial `file.save`, a failing
  `os.remove`.
- Every handler is a function from its parsed inputs and the store to a
  status and the store afterwards.
- Instants are integers counting microseconds, the resolution of Python's
  `datetime`.

Three behaviours of the code that a reader might not expect, and that the
model keeps:

- An activity entry whose `duration_seconds` is JSON `null` is rejected as
  malformed. It is not recomputed from its end and start times.
- A supplied non-negative duration is kept even when the end time precedes
  the start time. Only a non-numeric or negative duration leads to the
  end-before-start rejection.
- `get_report_date_range` computes the default window before it looks at the
  query dates. That default can overflow near 0001-01-01 even when custom
  dates are supplied.

## Model

| member | source | states |
|---|---|---|
| Api.VerifyApiKey | server/routes/api.py:15-30 | Passes exactly when a server key is configured and non-empty and the header equals it. An unset or empty server key is 500. Every other refusal is 401. |
| Api.BeforeApiRequest | server/routes/api.py:32-38 | Only heartbeat, log_activity and upload_screenshot are gated by the key. Every other endpoint passes. |
| Api.HandleHeartbeat | server/routes/api.py:41-67 | 200 exactly for a JSON object with a truthy employee_id. 400 for a non-JSON body, JSON null or a falsy id. 500 for a JSON non-object, whose `.get` raises. Nothing changes unless it is 200. With a string id and no storage fault, the employee is present afterwards with last_seen and updated_at set to now: a known employee keeps its name, status, first_seen and created_at, and a new one starts pending with first_seen and created_at now. No other employee is added or touched. A storage fault or a non-string id leaves the collection unchanged. |
| Api.HeartbeatNamesByHostname | server/routes/api.py:54-64 | A first heartbeat whose hostname is truthy and differs from the id creates a pending_rename employee named after the hostname. |
| Api.ParseTime | server/routes/api.py:119-120 | A value parses only when it is a string that fromisoformat accepts. Anything else makes the entry malformed. |
| Api.ComputedDuration | server/routes/api.py:122-128 | The recomputed duration exists exactly when both times are aware or both naive and end is not before start. It is then the whole seconds of end − start, rounded toward zero. |
| Api.DurationOf | server/routes/api.py:122-134 | A non-negative number is kept, truncated toward zero; a non-negative int is kept unchanged. A non-number or negative value is replaced by the recomputed duration. |
| Api.PrepareEntry | server/routes/api.py:103-146 | Accepted entries are objects with both times truthy and parseable and a non-null duration. An accepted entry yields a document with: the batch employee_id, the batch timestamp, log_type "activity", the parsed times, and the normalised duration (≥ 0). Title and process default to "N/A" and is_active to true. An accepted entry whose title is neither a string nor a list is flagged as raising in the debug line after the append. Conversely, every object whose times are present and parse, and whose duration can be normalised, is accepted. |
| Api.NullDurationRejected | server/routes/api.py:110-117 | A null duration_seconds always rejects the entry. |
| Api.SuppliedDurationKept | server/routes/api.py:122-134 | A supplied non-negative integer duration is stored as given, whatever the times say. |
| Api.BadDurationRecomputed | server/routes/api.py:122-128 | A non-numeric or negative duration is replaced by (end − start) in whole seconds. The entry is rejected when end < start. |
| Api.Preps | server/routes/api.py:103 | Entry i of the batch is handled by the loop body on its own: result i is PrepareEntry of entry i. |
| Api.RaisedCount | server/routes/api.py:137-146 | The entries whose debug line raises after the append are among the kept entries. |
| Api.Collect | server/routes/api.py:99-146 | The loop's accumulator. processed equals the number of documents, which equals the number of kept entries. malformed equals the rejected entries plus those that raised after the append. Every document comes from a kept entry. |
| Api.CollectPlacesDocs | server/routes/api.py:99-146 | The document of each kept entry i sits at position "number of kept entries before i". The documents are therefore exactly the kept entries' documents, in entry order. |
| Api.PrepareAll | server/routes/api.py:99-146 | The same facts stated over the raw entries: the number of documents is the number of entries PrepareEntry keeps, each kept entry's document sits at its place in entry order, and malformed counts the rejected entries plus those that raised after the append. With no documents, every entry is malformed. Every document is a batch document. |
| Api.CountersPartitionEntries | server/routes/api.py:103-146 | When no entry raises after the append, each entry increments exactly one of processed and malformed. |
| Api.Landed | server/routes/api.py:149-150 | The documents an unordered insert_many stored before raising are a sub-list of the batch. |
| Api.TouchLastSeen | server/routes/api.py:151 | The last_seen update adds no employee and changes only last_seen of the matching one. |
| Api.HandleLogActivity | server/routes/api.py:69-163 | A body with a truthy employee_id and a non-empty activities list leads to Logged, InsertFailed or AllMalformed, and only such a body does. The batch-level gates change nothing. Logged: no fault, at least one document appended, every new document a batch document, and last_seen set to the batch timestamp. InsertFailed leaves employees as they were. AllMalformed counts every entry. The final "nothing processed" branch is unreachable. For an accepted body, the outcome is fixed by the prepared batch and the fault. No documents gives AllMalformed. With documents and no fault, the batch is Logged with its size and malformed count, appended to the logs, and last_seen is touched. A raising insert appends only the documents that landed, and answers InsertFailed. A raising last_seen update keeps the whole batch and answers InsertFailed. |
| Api.SanitizeId | server/routes/api.py:187 | The sanitised id has the input's length. Every character is alphanumeric, '-' or '_'. Those characters stay in place and all others become '_'. |
| Api.SanitizeIdempotent | server/routes/api.py:187 | Sanitising twice equals sanitising once. |
| Api.StampRoundTrip | server/routes/api.py:190 | `%Y%m%d_%H%M%S_%f` is 22 characters, and every field reads back from its fixed columns. |
| Api.ScreenshotKeyShape | server/routes/api.py:175-190 | For the non-empty id the handler admits, the "unknown_emp" fallback is dead. The key splits back into stamp, sanitised id, 8-hex suffix and ".png". |
| Api.KeyColumns | server/routes/api.py:190 | Where stamp, id, suffix and extension sit in the key text. |
| Api.Cleanup | server/routes/api.py:212-217 | Removes the saved file unless removal raises, and touches no other file. |
| Api.StoreScreenshot | server/routes/api.py:197-218 | Uploaded exactly when save, insert and update all succeed: the file is stored, one entry appended and last_seen touched. Any raise is StoreFailed and leaves employees alone. A raising save or insert leaves the logs as they were. A raising update keeps the new entry. Unless removal raises, no file remains under the key. No other file is removed. |
| Api.HandleUpload | server/routes/api.py:165-218 | 400 exactly when a check fails: file part, form fields, filename or timestamp. 500 when the upload folder is unset. A check failure leaves the store as it was. For a valid request with a folder, the outcome is Uploaded exactly when no storage call raises, and StoreFailed exactly when one does. Uploaded: the key is the generated key, the file is stored under it, one screenshot entry is appended, and last_seen is touched. A failure never touches employees and, unless removal raises, leaves no file under the key. A failed save or insert adds no entry. A failed update keeps the new entry. No other file is ever removed. |
| Api.UploadOrphansRecordOnUpdateFailure | server/routes/api.py:199-218 | As written: when only the last_seen update raises, the metadata entry stays but its file is removed, so the entries are no longer backed by files. |
| Api.HandleUploadFixed | server/routes/api.py:199-218 | Corrected upload, cleanup before the insert only. The request checks are the same. For a valid request with a folder, the outcome is Uploaded exactly when save and insert succeed, whatever the last_seen update does, and StoreFailed exactly when one of them raises. A failure leaves logs and employees unchanged. An upload stores the file and the entry, and last_seen is touched unless that update raises. |
| Api.UploadFixedKeepsRecordsBacked | server/routes/api.py:199-218 | With the correction, every screenshot entry still names a stored file after any upload and any fault, given a fresh key. |
| Db.PlaceholderName | server/models/db.py:153 | "User_" followed by the first (up to) eight characters of the id. |
| Db.DisplayNameRule | server/models/db.py:153 | The hint is used exactly when it is truthy and differs from the id. Otherwise the name is "User_" plus a prefix of at most 8 characters of the id. |
| Db.CreateEmployee | server/models/db.py:146-177 | An unknown id gains exactly one pending_rename document with first_seen = last_seen = created_at = updated_at = now. A known id changes only last_seen and updated_at, both to now. No other employee changes. A storage exception changes nothing and yields None. |
| Db.CreateEmployeeKeepsKeys | server/models/db.py:146-177 | Every document stays filed under its own employee_id. |
| Db.TouchTwice | server/models/db.py:146-177 | Two check-ins from a new id create one employee, pending_rename, first seen at the first call and last seen at the second. |
| Db.SeedSet | server/models/db.py:47-51 | Three seeds with distinct names. Exactly one, "Neutral/Undefined", is the fallback. |
| Db.SeedFrom | server/models/db.py:52-61 | Existing categories are kept unchanged. Every added category is a default seed, with its own two clock readings for created_at and updated_at. Without a fault every default name is present afterwards. Unique names stay unique. |
| Db.SeedingProperties | server/models/db.py:45-61 | The same three facts for the whole seeding call. |
| Db.SeedFromNothingToDo | server/models/db.py:53-58 | When every default name is present, seeding inserts nothing. |
| Db.SeedingIdempotent | server/models/db.py:53-58 | After a fault-free run, a second run changes nothing, whatever faults it meets. |
| Db.IntToStringInjective | server/models/db.py:107 | `str(order)` contains no underscore and determines the order. |
| Db.SplitAtLastUnderscore | server/models/db.py:107 | A name of the form field + "_" + tail, with no underscore in the tail, determines both the field and the tail. |
| Db.IndexNameInjective | server/models/db.py:101-107 | Within one collection two index specifications get the same generated name exactly when they are equal, whatever characters the field holds. |
| Db.IndexNames | server/models/db.py:101-107 | Every specification's generated name is in the set. |
| Db.IndexNamesListed | server/models/db.py:101-107 | Every name in the set is generated by one of the specifications. |
| Db.EnsureIndexes | server/models/db.py:99-121 | Touches no collection and no other collection's indexes. Only adds names, and only generated names. Without faults every generated name exists afterwards. When every name already exists, nothing changes. |
| Db.EnsureCollection | server/models/db.py:85-96 | Only this collection may be added, and the category store stays valid. A missing collection whose creation does not raise is created; creating "categories" seeds the default categories, and any other creation leaves the categories alone. An existing collection, or a raising creation, leaves the categories unchanged. |
| Db.InitializeFromKeepsCategories | server/models/db.py:64-123 | Initialisation never removes or alters a stored category. |
| Db.FreshDatabaseSeeded | server/models/db.py:86-93 | A fault-free initialisation of a database without a "categories" collection leaves every default category name present. |
| Db.InitializeFromMonotone | server/models/db.py:85-121 | Initialisation never drops a collection or an index. |
| Db.InitializeCompletes | server/models/db.py:64-123 | A fault-free run leaves every collection and index of the schema table in place. |
| Db.InitializeFromNothingToDo | server/models/db.py:85-117 | On a complete schema a run creates nothing and seeds nothing. |
| Db.InitializeIdempotent | server/models/db.py:64-123 | Rerunning initialisation after a fault-free run changes nothing, whatever faults the rerun meets. |
| Categorization.FormColorDefault | server/routes/categorization.py:45 | The color is "#cccccc" only when the field is absent; a present field is stripped. |
| Categorization.AddCategory | server/routes/categorization.py:38-68 | A name that is empty after stripping, or already taken, inserts nothing. Success inserts exactly one category under a fresh id, with the stripped fields, is_default false, and created_at and updated_at from two separate clock readings, and keeps the others. Name uniqueness is preserved. |
| Categorization.EditById | server/routes/categorization.py:81-115 | An unknown id, a GET, an empty name, or a name another category holds changes nothing. Keeping the category's own name is allowed. Success changes only name, description, color and updated_at of that category. Name uniqueness is preserved. |
| Categorization.EditCategory | server/routes/categorization.py:71-122 | An id that is not 24 hex digits changes nothing. Otherwise the result is EditById's. |
| Categorization.ReplaceKeepsNamesUnique | server/routes/categorization.py:96-108 | Replacing a category by one whose name is its own or unused keeps names unique. |
| Categorization.DeleteById | server/routes/categorization.py:135-152 | Refused, with nothing changed, for an unknown id or a default category. A raising rule count is a database error. With a successful count, rules are reported (with their count) exactly when some rule refers to the category; `delete_one` is reached only otherwise, and its raising is a database error. Deleted exactly when none of these holds; then only that id is removed. |
| Categorization.DeleteCategory | server/routes/categorization.py:125-154 | An id that is not 24 hex digits changes nothing. Otherwise the result is DeleteById's. |
| Categorization.DeleteKeepsProtected | server/routes/categorization.py:135-147 | Deletion never removes a default category, and every rule still resolves afterwards. |
| Entities.ParseObjectId | server/routes/categorization.py:75-79 | `ObjectId(text)` succeeds exactly for 24 hex digits. |
| Entities.ObjectIdRoundTrip | server/routes/categorization.py:75-79 | The 24-digit rendering of an id parses back to it. |
| Entities.RuleCount | server/routes/categorization.py:143-144 | The rule count is 0 exactly when no rule refers to the category. |
| Users.ListUsers | server/routes/users.py:15-23 | The pending set holds exactly the pending_rename employees. The two sets are disjoint, cover every employee, and their sizes add up. |
| Users.RenameUser | server/routes/users.py:25-61 | An unknown id, a GET, a missing name, a name under 2 characters, or a database error changes nothing. Success sets display_name to the new name and status to active for that employee only, and nothing else. |
| Users.RenameLeavesPending | server/routes/users.py:18-19 | A successful rename moves the employee from the pending set to the others and leaves everyone else where they were. |
| Users.RenameKeepsKeys | server/routes/users.py:41-44 | Every document stays filed under its own employee_id. |
| Reports.ReportDateRange | server/routes/reports.py:18-34 | Both dates parse with end ≥ start: that window. Otherwise the seven days ending today. The window is ordered and representable. The default window overflows only within six days of 0001-01-01. |
| Reports.TotalPages | server/routes/reports.py:98 | ceil(total / per_page): 0 exactly for total 0, and (pages − 1)·per_page < total ≤ pages·per_page. |
| Reports.EntryPage | server/routes/reports.py:70 | Entry i sits on page i / per_page + 1. That page exists and its skip window contains i. |
| Reports.SkipSign | server/routes/reports.py:70 | The skip is non-negative exactly for pages from 1 on. |
| Reports.Select | server/routes/reports.py:86-90 | The filter keeps exactly the matching entries. |
| Reports.Window | server/routes/reports.py:87-90 | `.skip(n).limit(k)` gives exactly min(k, max(0, total − n)) consecutive entries from position n. A negative skip raises. |
| Reports.Listing | server/routes/reports.py:75-98 | No selected employee means no query, no items and total 0. Items match the filter and fit one page. total_pages is the ceiling. Items appear only when no query raised and the page is at least 1. With an employee selected, no fault and a page of at least 1, the page holds exactly min(per_page, max(0, total − skip)) items: the matches from position skip on. |
| Reports.EveryMatchListed | server/routes/reports.py:70-98 | Every matching entry is listed: match i appears on page i / per_page + 1, which the pager offers, at offset i mod per_page. |
| Reports.ActivityLogReport | server/routes/reports.py:53-109 | At most 20 items, all activity entries of the selected employee inside the window. None only when the window overflows. Unless the count raised, the total is the number of matching entries. With no fault and a page of at least 1, the page holds min(20, max(0, total − skip)) items. |
| Reports.ScreenshotReport | server/routes/reports.py:112-169 | At most 12 items, all screenshot entries with a path, of the selected employee inside the window. Unless the count raised, the total is the number of matching entries. With no fault and a page of at least 1, the page holds min(12, max(0, total − skip)) items. |
| Reports.ReportsDisjoint | server/routes/reports.py:85 | No entry appears in both reports. |
| Reports.SafeNameMeaning | server/routes/reports.py:175-177 | The guard accepts a name exactly when it has no "..", no NUL, and no leading '/' or '\\'. |
| Reports.ViewScreenshot | server/routes/reports.py:172-190 | Served exactly when the name passes the guard, a screenshot entry records it, and the file exists. The content is that file. |
| Reports.RecordedScreenshotsServed | server/routes/reports.py:180-190 | When every entry is backed by a file, every recorded name that passes the guard is served. |
| Reports.KeyCharacters | server/routes/api.py:187-190 | A generated key starts with a digit, ends in ".png", and holds no '.' or NUL before that. |
| Reports.GeneratedKeysPassGuard | server/routes/reports.py:175 | Every key the upload generates passes the viewer's guard, provided `isalnum` accepts neither '.' nor NUL. |
| Dashboard.ClockRoundTrip | server/routes/dashboard.py:35-37 | The H:MM:SS text reads back as the number it came from: h·3600 + m·60 + s = n with m, s < 60. It is at least 8 characters, exactly 8 below 100 hours. |
| Dashboard.FormatSeconds | server/routes/dashboard.py:32-37 | A non-number or a negative value gives "00:00:00". int() of NaN or infinity raises. Otherwise the text reads back as int(total). |
| Dashboard.WeekRange | server/routes/dashboard.py:15-17 | Monday of the current week to the Sunday after, containing today. Fails only in the last week of 9999. |
| Dashboard.MonthRange | server/routes/dashboard.py:18-20 | Day 1 to the last day of the month, containing today. Fails only in December 9999. |
| Dashboard.DashboardRange | server/routes/dashboard.py:13-29 | Week, month or day window containing today, as the branches above. The day branch is today alone and fails only on 9999-12-31. |
| Dashboard.DashboardRangeHoldsNow | server/routes/dashboard.py:26-27 | The window, from 00:00:00.000000 of its first day to 23:59:59.999999 of its last, contains the instant it was computed at. |
| Calendar.Weekday | server/routes/dashboard.py:16 | `weekday()` is in 0..6, with 0 for Monday. |
| Calendar.MonthEndIsDayBeforeNextMonth | server/routes/dashboard.py:19-20 | The first of the next month minus one day is the last day of this month. |
| Calendar.DayRangeBounds | server/routes/reports.py:32-33 | Window bounds sit at midnight and one microsecond before the next midnight. An ordered window is non-empty. |
| Calendar.Elapsed | server/routes/api.py:123 | Subtraction is defined exactly when both datetimes are aware or both naive, and equals the difference of the UTC instants. |
| Text.Strip | server/routes/categorization.py:43-45 | `strip()` is the middle of the input with only whitespace on both sides, and has no whitespace at either end. It is empty exactly for all-whitespace input. |
| Text.StripIdempotent | server/routes/categorization.py:43-45 | Stripping twice equals stripping once. |
| Json.TruncateNonNegative | server/routes/dashboard.py:35 | `int()` of a non-negative number: an int unchanged, a finite float rounded down. None for NaN and infinities. |
| Agent.RoundHalfEven | agent/agent.py:253 | `round()` of the elapsed seconds is within half a second of them. A tie goes to the even neighbour. At least 1 for a second or more. |
| Agent.OrNotAvailable | agent/agent.py:249-250 | An empty text becomes "N/A". A non-empty one is kept. |
| Agent.Step | agent/agent.py:227-277 | The step always ends tracking the polled window and process. The first poll only starts tracking. On a change: a record iff elapsed ≥ 1 s, empty names become "N/A", and start resets to now. Unchanged: a record iff elapsed > 10 upload intervals and the title is non-empty, and start resets. A record runs from the tracked start to now, lasts ≥ 1 s, has duration round(elapsed) ≥ 1, with a tie rounded to the even neighbour as Python's `round` does, and is active. |
| Agent.RunChronological | agent/agent.py:241-277 | Under a monotone clock the records are each ≥ 1 s long, do not overlap, and follow one another. |
| Agent.RunEndsByLastPoll | agent/agent.py:251-252 | Every record ends by the last poll. |
| Agent.RunTracksLastWindow | agent/agent.py:262-265 | After any run the monitor tracks exactly the window and process of the last poll. |
| Agent.ReadAnswer | agent/agent.py:313 | The answer is accepted exactly when it is an object whose "status" is "ok". Reading raises exactly when the answer is truthy and not an object. |
| Agent.Drain | agent/agent.py:296-316 | While the uploader is alive, a non-empty buffer goes out as one batch, equal to its contents, and the buffer is emptied whatever the answer. The uploader stays alive exactly when reading the answer does not raise. An empty buffer, or an ended uploader, sends nothing. |
| Agent.ReplayConservesRecords | agent/agent.py:296-316 | Over any history, the sent batches followed by the buffer are exactly the appended records, in order: no record is lost, duplicated or re-queued. |
| Agent.ReplaySendsNoEmptyBatch | agent/agent.py:302 | No empty batch is ever sent. |
| Agent.UploaderAliveUntilBadAnswer | agent/agent.py:311-313 | The uploader is alive exactly when no answer it has read was truthy and not an object. |
| Agent.EndedUploaderSendsNothing | agent/agent.py:288-313 | Once the uploader has ended, no further batch is sent, and every record appended later stays in the buffer. |
| Agent.Classify | agent/agent.py:153-174 | An exception asks for a retry. A 401 returns None. Other 4xx/5xx statuses are retried. A success returns the decoded body, or the ok_no_json object when decoding fails. |
| Agent.Outcome | agent/agent.py:135-181 | The number of attempts is at most max_retries. |
| Agent.SendData | agent/agent.py:128-181 | The loop's result equals the reference outcome. At most max_retries attempts, all but the last asked for a retry. An early stop is a return. An exhausted loop returns None. There is a sleep only between attempts. |
| Agent.UnauthorizedStops | agent/agent.py:165-170 | A 401 ends the call at once with None, whatever later attempts would do. |
| Agent.OutcomeSkipsRetries | agent/agent.py:176-181 | Attempts that all ask for a retry are passed over. |
| Agent.DefaultRetryBudget | agent/agent.py:132-181 | With the fallback settings (3 attempts, 10 s delay) a call makes one to three attempts and sleeps at most 20 s; when every attempt asks for a retry it makes all three, sleeps 20 s and gives None. |
| Agent.HeartbeatInterval | agent/agent.py:325 | The interval is max(60, 2·interval): at least 60, at least twice the upload interval, and one of the two. |
| Agent.StepRecordStored | agent/agent.py:248-258 | A record the monitor emits is accepted by the server's validator, not counted malformed, and stored with the same title, process, times and duration, provided the server parses the timestamps the agent renders. |

## Left out

- Flask plumbing: `jsonify`, `abort`, `flash`, redirects, templates and sessions. Handlers return an outcome and the store afterwards.
- MongoDB connection handling (`get_db`, `close_db`) and the aggregation pipelines of the dashboard view (server/routes/dashboard.py:68-197); those semantics belong to the database engine.
- `download_agent_exe` and `get_active_employees` (server/routes/api.py:224-265): a file download and a database query with nothing to decide; only the fact that they are not key-gated is modelled.
- `create_default_admin` (server/models/db.py:126-143): a bcrypt call and an insert. The `users` collection and its indexes are modelled, the admin seed is not.
- The unique-index options of `initialize_db`: only the index names matter to the create-if-missing logic.
- server/routes/auth.py, server/routes/settings.py, server/app.py and the config files, apart from the agent's `ACTIVITY_LOG_INTERVAL_SECONDS`.
- Disk I/O (`file.save`, `os.remove`, `os.path.isfile`, `send_from_directory`): the upload folder is a map from file names to bytes, and failures are injected.
- The agent's OS capture (`get_active_window_info`, `take_screenshot`), `screenshot_worker`, the threads, the lock and `time.sleep`. Only the pure step, the drain and the retry policy are modelled; sleeps are counted.
- The HTTP transport of `send_data`: each attempt's result is an input.
- `isoformat` rendering on the agent: it is the parameter `iso` of Agent.StepRecordStored.
- Agent.Step: the loop's exception handler, which resets tracking, is not modelled. Titles and process names are always strings, so nothing in the loop body raises.
- Agent.Step: `total_seconds()` is a float. Elapsed times are compared exactly in microseconds, which agrees with the float below 2^53 microseconds (about 285 years).
- Agent.RoundHalfEven: rounds the exact microsecond count. Python rounds the float quotient, which can differ only when that quotient is not exact.
- Api.ComputedDuration: takes the exact floor of the microsecond difference. The source truncates the float `total_seconds()`, and that float can round up to the next whole second. The two agree for spans under 2^34 seconds (about 544 years), where half a unit in the last place is below one microsecond. For longer spans the source can store one second more. For example, 0001-01-01T00:00:00 to 0999-12-31T23:59:59.999999 gives 31525372800 in Python and 31525372799 in the model. Api.BadDurationRecomputed states the same exact floor.
- Api.BadDurationRecomputed: inherits the exact floor of Api.ComputedDuration, so it is weaker than the source for spans of 2^34 seconds or more.
- Json.TruncateNonNegative: floats are modelled as reals plus NaN and infinities, not as IEEE-754 doubles.
- Api.HandleHeartbeat: MongoDB's matching of a non-string employee_id is not modelled. Employees are a map keyed by string ids, and a truthy non-string id answers 200 with the map unchanged. The source behaves differently in two ways. An operator object such as `{"$ne": ""}` makes `find_one` (server/models/db.py:150) match some existing employee, whose last_seen and updated_at are then set. A number or a list is stored as a new employee with that value as its id. So "no other employee is touched" holds in the source only for string ids.
- Api.TouchLastSeen: matches the employee whose id equals the given string. An operator-object employee_id in the `update_one` filter (server/routes/api.py:151) can match and touch an employee with a different id. The model touches nobody in that case.
- Users.ListUsers: covers only string-keyed employees. An employee stored under a non-string id, which a heartbeat can create, is counted by `list_users` but is not part of the model.
- Api.StampRoundTrip: `%Y` is modelled as a four-digit zero-padded year. Some C libraries print years below 1000 with fewer digits.
- Reports.Listing: the listing keeps stored order. The database's `sort("timestamp", -1)` is not modelled, so which entries land on a page is weaker than the source's newest-first promise. The number of entries on a page is as in the source.
- Reports.ViewScreenshot: the path join is not modelled. A name that passes the guard is looked up directly in the upload folder.
- Categorization's `manage_categories` listing and the categorisation-rule routes: the first only renders, and the second is a TODO in the source. Rules appear only as references to count.

## Findings

| source | as written | input that shows it | evidently intended | confidence | as-written member | corrected member |
|---|---|---|---|---|---|---|
| server/routes/api.py:199-218 | One try block covers the save, the metadata insert and the last_seen update. Any failure removes the saved file. | A valid upload where `file.save` and `insert_one` succeed and `update_one` on employees raises. The new screenshot entry is left pointing at a removed file, so the viewer answers 404 for a recorded screenshot. | Remove the file only when the metadata entry was not written. Once the entry exists, keep the file, and treat the last_seen update as a best-effort touch. | not executed | Api.UploadOrphansRecordOnUpdateFailure | Api.HandleUploadFixed |

=== FILE: agent.dfy ===
/** agent/agent.py: the parts of the monitoring agent with logic of their own.
    The activity monitor cuts the foreground-window history into records, the
    uploader drains the shared buffer into batches, and `send_data` retries a
    request. Instants are UTC microseconds, the unit of Python's `datetime`. */
module Agent {
  import opened Common
  import opened Json
  import opened Calendar
  import opened Entities
  import opened Api

  /** agent/config.py: the upload cadence, which also scales the long-activity
      cut-off and the heartbeat. */
  const ActivityLogIntervalSeconds: int := 60

  /** `send_data` falls back to these when the configuration has no
      `MAX_UPLOAD_RETRIES` or `UPLOAD_RETRY_DELAY`, as agent/config.py has not. */
  const DefaultMaxRetries: nat := 3
  const RetryDelaySeconds: nat := 10

  // ---------------------------------------------------------------------------
  // Activity segmentation (activity_monitor_worker)

  /** One record of the activity buffer. */
  datatype ActivityRecord = ActivityRecord(windowTitle: string, processName: string, start: int, end: int,
                                           durationSeconds: int, isActive: bool)

  /** The monitor's state: nothing tracked yet (start time None), or the window
      and process being tracked since `start`. */
  datatype Tracker = Idle | Tracking(start: int, title: string, process: string)

  /** What one poll sees: the foreground window, its process and the clock. */
  datatype Observation = Observation(title: string, process: string, now: int)

  /** An unchanged window is cut once it has run for more than ten upload
      intervals. */
  const LongActivityMicros: int := ActivityLogIntervalSeconds * 10 * MicrosPerSecond

  /** `int(round(us / 10**6))`: Python rounds a tie to the even neighbour. */
  function RoundHalfEven(us: nat): (r: nat)
    ensures r * MicrosPerSecond - MicrosPerSecond / 2 <= us <= r * MicrosPerSecond + MicrosPerSecond / 2
    ensures us % MicrosPerSecond == MicrosPerSecond / 2 ==> r % 2 == 0
    ensures us >= MicrosPerSecond ==> r >= 1
  {
    var q, rem := us / MicrosPerSecond, us % MicrosPerSecond;
    if rem < MicrosPerSecond / 2 then q
    else if rem > MicrosPerSecond / 2 then q + 1
    else if q % 2 == 0 then q
    else q + 1
  }

  /** `x if x else "N/A"`. */
  function OrNotAvailable(s: string): (r: string)
    ensures r != ""
    ensures s != "" ==> r == s
  {
    if s == "" then "N/A" else s
  }

  /** One pass of the monitor loop. The first pass only starts tracking. A
      change of window or process closes the tracked segment, recording it when
      it lasted at least a second, and starts tracking the new window; an
      unchanged window with a title that has run too long is recorded and
      tracked afresh from now. */
  function Step(t: Tracker, o: Observation): (r: (Tracker, Option<ActivityRecord>))
    ensures r.0.Tracking? && r.0.title == o.title && r.0.process == o.process
    ensures t.Idle? ==> r == (Tracking(o.now, o.title, o.process), None)
    ensures t.Tracking? && (o.title != t.title || o.process != t.process) ==>
      && r.0.start == o.now
      && (r.1.Some? <==> o.now - t.start >= MicrosPerSecond)
      && (r.1.Some? ==> r.1.value.windowTitle == OrNotAvailable(t.title)
                        && r.1.value.processName == OrNotAvailable(t.process))
    ensures t.Tracking? && o.title == t.title && o.process == t.process ==>
      && (r.1.Some? <==> o.now - t.start > LongActivityMicros && t.title != "")
      && (r.1.Some? ==> r.0.start == o.now && r.1.value.windowTitle == t.title
                        && r.1.value.processName == t.process)
      && (r.1.None? ==> r.0 == t)
    ensures r.1.Some? ==>
      var rec := r.1.value;
      && t.Tracking? && rec.start == t.start && rec.end == o.now && r.0.start == o.now
      && rec.end - rec.start >= MicrosPerSecond
      && rec.durationSeconds >= 1
      && rec.durationSeconds == RoundHalfEven(rec.end - rec.start)
      && rec.durationSeconds * MicrosPerSecond - MicrosPerSecond / 2 <= rec.end - rec.start
      && rec.end - rec.start <= rec.durationSeconds * MicrosPerSecond + MicrosPerSecond / 2
      && rec.windowTitle != "" && rec.isActive
    ensures t.Tracking? && r.1.None? ==> r.0.start == t.start || r.0.start == o.now
  {
    match t
    case Idle => (Tracking(o.now, o.title, o.process), None)
    case Tracking(start, title, process) =>
      var elapsed := o.now - start;
      if o.title != title || o.process != process then
        var rec := if elapsed >= MicrosPerSecond
          then Some(ActivityRecord(OrNotAvailable(title), OrNotAvailable(process), start, o.now,
                                   RoundHalfEven(elapsed), true))
          else None;
        (Tracking(o.now, o.title, o.process), rec)
      else if elapsed > LongActivityMicros && title != "" then
        (Tracking(o.now, title, process), Some(ActivityRecord(title, process, start, o.now, RoundHalfEven(elapsed), true)))
      else (t, None)
  }

  /** The monitor over a sequence of polls: its final state and the records it
      appended, in order. */
  function Run(t: Tracker, obs: seq<Observation>): (seq<ActivityRecord>, Tracker)
    decreases |obs|
  {
    if obs == [] then ([], t)
    else
      var (t', rec) := Step(t, obs[0]);
      var (rest, last) := Run(t', obs[1..]);
      ((if rec.Some? then [rec.value] else []) + rest, last)
  }

  /** The clock never runs backwards between polls. */
  predicate ClockMonotone(obs: seq<Observation>) {
    forall i, j :: 0 <= i < j < |obs| ==> obs[i].now <= obs[j].now
  }

  /** Records last at least a second and follow one another without overlap. */
  predicate Chronological(recs: seq<ActivityRecord>) {
    && (forall i :: 0 <= i < |recs| ==> recs[i].start + MicrosPerSecond <= recs[i].end)
    && (forall i :: 0 <= i < |recs| - 1 ==> recs[i].end <= recs[i + 1].start)
  }

  /** Under a clock that never runs backwards the records are chronological
      and start no earlier than any bound on the tracked start and the clock. */
  lemma {:induction false} RunChronological(t: Tracker, obs: seq<Observation>, floor: int)
    requires ClockMonotone(obs)
    requires t.Tracking? ==> floor <= t.start
    requires forall i :: 0 <= i < |obs| ==> floor <= obs[i].now
    ensures Chronological(Run(t, obs).0)
    ensures forall i :: 0 <= i < |Run(t, obs).0| ==> floor <= Run(t, obs).0[i].start
    decreases |obs|
  {
    if obs != [] {
      var step := Step(t, obs[0]);
      var rec := step.1;
      var floor' := if rec.Some? then obs[0].now else floor;
      TailClock(obs, floor');
      RunChronological(step.0, obs[1..], floor');
      var rest := Run(step.0, obs[1..]).0;
      assert Run(t, obs).0 == (if rec.Some? then [rec.value] else []) + rest;
      if rec.Some? {
        PrependChronological(rec.value, rest, floor);
      }
    }
  }

  /** Every record ends by the last poll. */
  lemma {:induction false} RunEndsByLastPoll(t: Tracker, obs: seq<Observation>)
    requires ClockMonotone(obs)
    ensures forall i :: 0 <= i < |Run(t, obs).0| ==> Run(t, obs).0[i].end <= obs[|obs| - 1].now
    decreases |obs|
  {
    if obs != [] {
      var step := Step(t, obs[0]);
      TailClock(obs, obs[0].now);
      RunEndsByLastPoll(step.0, obs[1..]);
      var rest := Run(step.0, obs[1..]).0;
      var recs := Run(t, obs).0;
      assert recs == (if step.1.Some? then [step.1.value] else []) + rest;
      if |obs| > 1 {
        assert obs[1..][|obs| - 2] == obs[|obs| - 1];
      }
      forall i | 0 <= i < |recs|
        ensures recs[i].end <= obs[|obs| - 1].now
      {
        if step.1.Some? && i > 0 {
          assert recs[i] == rest[i - 1];
        } else if step.1.None? {
          assert recs[i] == rest[i];
        }
      }
    }
  }

  /** The polls after the first keep a monotone clock, above any bound that
      is at most the first reading. */
  lemma TailClock(obs: seq<Observation>, floor: int)
    requires obs != [] && ClockMonotone(obs) && floor <= obs[0].now
    ensures ClockMonotone(obs[1..])
    ensures forall i :: 0 <= i < |obs[1..]| ==> floor <= obs[1..][i].now
  {
    forall i, j | 0 <= i < j < |obs[1..]|
      ensures obs[1..][i].now <= obs[1..][j].now
    {
      assert obs[1..][i] == obs[i + 1] && obs[1..][j] == obs[j + 1];
    }
    forall i | 0 <= i < |obs[1..]|
      ensures floor <= obs[1..][i].now
    {
      assert obs[1..][i] == obs[i + 1];
    }
  }

  /** A record that ends before the rest begin extends a chronological run. */
  lemma PrependChronological(rec: ActivityRecord, rest: seq<ActivityRecord>, floor: int)
    requires floor <= rec.start && rec.start + MicrosPerSecond <= rec.end
    requires Chronological(rest)
    requires forall i :: 0 <= i < |rest| ==> rec.end <= rest[i].start
    ensures Chronological([rec] + rest)
    ensures forall i :: 0 <= i < |[rec] + rest| ==> floor <= ([rec] + rest)[i].start
  {
    var recs := [rec] + rest;
    forall i | 0 <= i < |recs| - 1
      ensures recs[i].end <= recs[i + 1].start
    {
      if i > 0 {
        assert recs[i] == rest[i - 1] && recs[i + 1] == rest[i];
      }
    }
    forall i | 0 <= i < |recs|
      ensures floor <= recs[i].start
    {
      if i > 0 {
        assert recs[i] == rest[i - 1];
      }
    }
  }

  /** After any poll the monitor tracks exactly what that poll saw. */
  lemma {:induction false} RunTracksLastWindow(t: Tracker, obs: seq<Observation>)
    requires obs != []
    ensures var last := Run(t, obs).1;
      last.Tracking? && last.title == obs[|obs| - 1].title && last.process == obs[|obs| - 1].process
    decreases |obs|
  {
    var (t', _) := Step(t, obs[0]);
    if obs[1..] != [] {
      RunTracksLastWindow(t', obs[1..]);
      assert obs[1..][|obs[1..]| - 1] == obs[|obs| - 1];
    }
  }

  // ---------------------------------------------------------------------------
  // The activity buffer (activity_log_uploader_worker)

  /** A batch taken from the buffer and the answer `send_data` gave for it
      (Null for None). */
  datatype Batch = Batch(records: seq<ActivityRecord>, answer: Value)

  /** The shared buffer, every batch drained from it so far, and whether the
      uploader thread is still alive. */
  datatype Queue = Queue(buffer: seq<ActivityRecord>, batches: seq<Batch>, uploaderAlive: bool)

  /** What happens to the buffer: the monitor appends a record, or the uploader
      wakes and, if the buffer is non-empty, sends it and reads the answer. */
  datatype Event = Append(record: ActivityRecord) | Upload(answer: Value)

  /** How the uploader reads an answer, `response_json and
      response_json.get("status") == "ok"`: Some(accepted), or None when the
      answer is truthy but not an object, so that `.get` raises outside any
      handler and the uploader thread ends. */
  function ReadAnswer(response: Value): (r: Option<bool>)
    ensures r.None? <==> Truthy(response) && !response.Object?
    ensures r == Some(true) <==>
      response.Object? && "status" in response.fields && response.fields["status"] == Str("ok")
  {
    if !Truthy(response) then Some(false)
    else if !response.Object? then None
    else Some(Get(response.fields, "status", Null) == Str("ok"))
  }

  /** The locked copy-and-clear, then the send: the whole buffer goes out as one
      batch and is never put back, whatever the answer. Once the uploader has
      ended nothing drains the buffer any more. */
  function Drain(q: Queue, answer: Value): (r: Queue)
    ensures !q.uploaderAlive || q.buffer == [] ==> r == q
    ensures q.uploaderAlive && q.buffer != [] ==>
      && r.buffer == []
      && r.batches == q.batches + [Batch(q.buffer, answer)]
      && (r.uploaderAlive <==> ReadAnswer(answer).Some?)
  {
    if !q.uploaderAlive || q.buffer == [] then q
    else Queue([], q.batches + [Batch(q.buffer, answer)], ReadAnswer(answer).Some?)
  }

  function Apply(q: Queue, e: Event): Queue {
    match e
    case Append(rec) => q.(buffer := q.buffer + [rec])
    case Upload(answer) => Drain(q, answer)
  }

  /** The buffer after a history of events, starting empty with the uploader
      running. */
  function Replay(events: seq<Event>): Queue {
    if events == [] then Queue([], [], true)
    else Apply(Replay(events[..|events| - 1]), events[|events| - 1])
  }

  /** The records the monitor appended, in order. */
  function Appended(events: seq<Event>): seq<ActivityRecord> {
    if events == [] then []
    else
      var last := events[|events| - 1];
      Appended(events[..|events| - 1]) + (if last.Append? then [last.record] else [])
  }

  /** The records of the batches, in the order they were sent. */
  function Sent(batches: seq<Batch>): seq<ActivityRecord> {
    if batches == [] then [] else Sent(batches[..|batches| - 1]) + batches[|batches| - 1].records
  }

  /** Every appended record is either in exactly one sent batch, in append
      order, or still in the buffer. */
  lemma {:induction false} ReplayConservesRecords(events: seq<Event>)
    ensures var q := Replay(events);
      Sent(q.batches) + q.buffer == Appended(events)
  {
    if events != [] {
      var prefix, e := events[..|events| - 1], events[|events| - 1];
      var q := Replay(prefix);
      ReplayConservesRecords(prefix);
      assert Replay(events) == Apply(q, e);
      assert Appended(events) == Appended(prefix) + (if e.Append? then [e.record] else []);
      match e
      case Append(rec) =>
        assert Sent(q.batches) + (q.buffer + [rec]) == (Sent(q.batches) + q.buffer) + [rec];
      case Upload(answer) =>
        if q.uploaderAlive && q.buffer != [] {
          var batches := q.batches + [Batch(q.buffer, answer)];
          assert batches[..|batches| - 1] == q.batches;
          assert Sent(batches) == Sent(q.batches) + q.buffer;
        }
    }
  }

  /** The uploader never sends an empty batch. */
  lemma {:induction false} ReplaySendsNoEmptyBatch(events: seq<Event>)
    ensures forall i :: 0 <= i < |Replay(events).batches| ==> Replay(events).batches[i].records != []
  {
    if events != [] {
      var prefix := events[..|events| - 1];
      ReplaySendsNoEmptyBatch(prefix);
      assert Replay(events) == Apply(Replay(prefix), events[|events| - 1]);
    }
  }

  /** The uploader is alive exactly as long as no answer it read made `.get`
      raise. */
  lemma {:induction false} UploaderAliveUntilBadAnswer(events: seq<Event>)
    ensures var q := Replay(events);
      q.uploaderAlive <==> forall i :: 0 <= i < |q.batches| ==> ReadAnswer(q.batches[i].answer).Some?
  {
    if events != [] {
      var prefix := events[..|events| - 1];
      var q := Replay(prefix);
      UploaderAliveUntilBadAnswer(prefix);
      assert Replay(events) == Apply(q, events[|events| - 1]);
      var r := Replay(events);
      if r.batches != q.batches {
        assert r.batches[..|q.batches|] == q.batches;
        assert r.batches[|q.batches|].answer == events[|events| - 1].answer;
      }
    }
  }

  /** Once the uploader has ended, nothing is sent any more: the batches stay
      as they were and every later record stays in the buffer. */
  lemma {:induction false} EndedUploaderSendsNothing(events: seq<Event>, later: seq<Event>)
    requires !Replay(events).uploaderAlive
    ensures var q, r := Replay(events), Replay(events + later);
      && !r.uploaderAlive
      && r.batches == q.batches
      && r.buffer == q.buffer + Appended(later)
    decreases |later|
  {
    if later == [] {
      assert events + later == events;
    } else {
      var init, e := later[..|later| - 1], later[|later| - 1];
      EndedUploaderSendsNothing(events, init);
      var all := events + later;
      assert all[..|all| - 1] == events + init && all[|all| - 1] == e;
      assert Replay(all) == Apply(Replay(events + init), e);
      assert Appended(later) == Appended(init) + (if e.Append? then [e.record] else []);
    }
  }

  // ---------------------------------------------------------------------------
  // send_data

  /** One attempt: an exception before a response (timeout, connection error
      or anything else), or a response with its status and its body decoded as
      JSON (None when decoding fails). */
  datatype Attempt = Raised | Responded(status: int, body: Option<Value>)

  /** What `send_data` does after an attempt: return a value, or try again. */
  datatype Verdict = Return(value: Value) | Retry

  /** The answer used when a success response is not JSON. */
  const OkNoJson: Value := Object(map["status" := Str("ok_no_json"),
                                      "message" := Str("Server responded successfully but not with JSON.")])

  /** `raise_for_status` raises on 4xx and 5xx: a 401 gives up with None, any
      other error status is retried; any other status returns the decoded body. */
  function Classify(a: Attempt): (v: Verdict)
    ensures a.Raised? ==> v == Retry
    ensures a.Responded? && a.status == 401 ==> v == Return(Null)
    ensures a.Responded? && 400 <= a.status < 600 && a.status != 401 ==> v == Retry
    ensures a.Responded? && !(400 <= a.status < 600) ==>
      v == Return(if a.body.Some? then a.body.value else OkNoJson)
  {
    match a
    case Raised => Retry
    case Responded(status, body) =>
      if 400 <= status < 600 then (if status == 401 then Return(Null) else Retry)
      else Return(body.GetOr(OkNoJson))
  }

  /** The outcome of attempts `k` onwards, and how many attempts were made in
      all: the first that returns decides, and None (Null) once the attempts run
      out. */
  function Outcome(maxRetries: nat, attempts: nat -> Attempt, k: nat): (r: (Value, nat))
    requires k <= maxRetries
    ensures k <= r.1 <= maxRetries
    decreases maxRetries - k
  {
    if k == maxRetries then (Null, k)
    else
      match Classify(attempts(k))
      case Return(v) => (v, k + 1)
      case Retry => Outcome(maxRetries, attempts, k + 1)
  }

  /** `send_data` with `attempts(k)` the result of attempt k. Returns the value,
      the number of attempts made and the number of sleeps between them. */
  method SendData(maxRetries: nat, attempts: nat -> Attempt) returns (response: Value, tries: nat, sleeps: nat)
    ensures (response, tries) == Outcome(maxRetries, attempts, 0)
    ensures tries <= maxRetries
    ensures forall k :: 0 <= k < tries - 1 ==> Classify(attempts(k)) == Retry
    ensures tries < maxRetries ==> 0 < tries && Classify(attempts(tries - 1)) == Return(response)
    ensures tries == maxRetries && 0 < tries && Classify(attempts(tries - 1)) == Retry ==> response == Null
    ensures sleeps == if tries == 0 then 0 else tries - 1
  {
    response, tries, sleeps := Null, 0, 0;
    var k: nat := 0;
    while k < maxRetries
      invariant k <= maxRetries
      invariant tries == k
      invariant forall j :: 0 <= j < k ==> Classify(attempts(j)) == Retry
      invariant Outcome(maxRetries, attempts, k) == Outcome(maxRetries, attempts, 0)
      invariant sleeps == if k == 0 then 0 else if k < maxRetries then k else k - 1
      invariant response == Null
    {
      var verdict := Classify(attempts(k));
      tries := k + 1;
      if verdict.Return? {
        response := verdict.value;
        return;
      }
      if k + 1 < maxRetries {
        sleeps := sleeps + 1;
      }
      k := k + 1;
    }
  }

  /** The time `send_data` spends in `time.sleep(retry_delay)` over `sleeps` waits. */
  function WaitedSeconds(sleeps: nat, delay: nat): nat {
    sleeps * delay
  }

  /** With the fallback settings a call makes at most three attempts and waits
      at most twenty seconds; when every attempt asks for a retry it makes all
      three, waits exactly twenty seconds and gives None. */
  lemma DefaultRetryBudget(attempts: nat -> Attempt)
    ensures var (v, tries) := Outcome(DefaultMaxRetries, attempts, 0);
      && 1 <= tries <= DefaultMaxRetries
      && WaitedSeconds(tries - 1, RetryDelaySeconds) <= 20
    ensures (forall j :: 0 <= j < DefaultMaxRetries ==> Classify(attempts(j)) == Retry) ==>
      && Outcome(DefaultMaxRetries, attempts, 0) == (Null, DefaultMaxRetries)
      && WaitedSeconds(DefaultMaxRetries - 1, RetryDelaySeconds) == 20
  {
  }

  /** A 401 ends the call at once, whatever later attempts would have done. */
  lemma UnauthorizedStops(maxRetries: nat, attempts: nat -> Attempt, k: nat)
    requires k < maxRetries
    requires forall j :: 0 <= j < k ==> Classify(attempts(j)) == Retry
    requires attempts(k).Responded? && attempts(k).status == 401
    ensures Outcome(maxRetries, attempts, 0) == (Null, k + 1)
  {
    OutcomeSkipsRetries(maxRetries, attempts, 0, k);
  }

  /** Attempts that all ask for a retry are passed over. */
  lemma {:induction false} OutcomeSkipsRetries(maxRetries: nat, attempts: nat -> Attempt, i: nat, k: nat)
    requires i <= k <= maxRetries
    requires forall j :: i <= j < k ==> Classify(attempts(j)) == Retry
    ensures Outcome(maxRetries, attempts, i) == Outcome(maxRetries, attempts, k)
    decreases k - i
  {
    if i < k {
      OutcomeSkipsRetries(maxRetries, attempts, i + 1, k);
    }
  }

  // ---------------------------------------------------------------------------
  // heartbeat_worker

  /** `max(60, interval * 2)`. */
  function HeartbeatInterval(logInterval: int): (r: int)
    ensures r >= 60 && r >= 2 * logInterval
    ensures r == 60 || r == 2 * logInterval
  {
    if 2 * logInterval > 60 then 2 * logInterval else 60
  }

  // ---------------------------------------------------------------------------
  // From the agent to the server

  /** The JSON object the uploader sends for a record; `iso` renders an
      instant as `isoformat()` does. */
  function ToEntry(rec: ActivityRecord, iso: int -> string): Value {
    Object(map["window_title" := Str(rec.windowTitle), "process_name" := Str(rec.processName),
               "start_time" := Str(iso(rec.start)), "end_time" := Str(iso(rec.end)),
               "duration_seconds" := Int(rec.durationSeconds), "is_active" := Bool(rec.isActive)])
  }

  /** A record the monitor emits is stored by the server as sent: its title,
      process, times and rounded duration, and it is never counted malformed,
      provided the server parses the timestamps the agent renders. */
  lemma StepRecordStored(t: Tracker, o: Observation, iso: int -> string,
                         parse: string -> Option<ValidDateTime>, employeeId: Value, batchTs: DateTime)
    requires Step(t, o).1.Some?
    requires var rec := Step(t, o).1.value;
      iso(rec.start) != "" && iso(rec.end) != "" && parse(iso(rec.start)).Some? && parse(iso(rec.end)).Some?
    ensures var rec := Step(t, o).1.value;
      PrepareEntry(ToEntry(rec, iso), employeeId, batchTs, parse)
        == Prepared(ActivityDoc(employeeId, batchTs, Str(rec.windowTitle), Str(rec.processName),
                                parse(iso(rec.start)).value, parse(iso(rec.end)).value,
                                rec.durationSeconds, Bool(true)))
  {
    var rec := Step(t, o).1.value;
    var fields := ToEntry(rec, iso).fields;
    assert StartOf(fields) == Str(iso(rec.start));
    assert EndOf(fields) == Str(iso(rec.end));
    assert DurationField(fields) == Int(rec.durationSeconds);
  }
}

=== FILE: api.dfy ===
/** server/routes/api.py: the agent-facing endpoints. The shared-secret gate,
    the heartbeat, the activity-batch validator and its outcome, and the
    screenshot upload with its storage key and cleanup. Clock readings, the
    ISO-8601 parser, `str.isalnum` and the random key suffix are parameters;
    every storage call that can raise is an injected fault. */
module Api {
  import opened Common
  import opened Json
  import opened Text
  import opened Calendar
  import opened Entities
  import opened Db

  // ---------------------------------------------------------------------------
  // The API key gate

  datatype Gate = Pass | Abort(code: int)

  /** `verify_api_key`: an unset or empty server key is a 500; a missing, empty
      or different X-API-KEY header is a 401. */
  function VerifyApiKey(provided: Option<string>, configured: Option<string>): (g: Gate)
    ensures g == Pass <==> configured.Some? && configured.value != "" && provided == configured
    ensures g == Abort(500) <==> configured.None? || configured.value == ""
    ensures g.Abort? ==> g.code == 500 || g.code == 401
  {
    if configured.None? || configured.value == "" then Abort(500)
    else if provided.None? || provided.value == "" || provided != configured then Abort(401)
    else Pass
  }

  datatype Endpoint = Heartbeat | LogActivity | UploadScreenshot | DownloadAgent | ActiveEmployees

  predicate NeedsApiKey(e: Endpoint) {
    e == Heartbeat || e == LogActivity || e == UploadScreenshot
  }

  /** `before_api_request`: only the three agent endpoints are gated by the key. */
  function BeforeApiRequest(e: Endpoint, provided: Option<string>, configured: Option<string>): (g: Gate)
    ensures !NeedsApiKey(e) ==> g == Pass
    ensures NeedsApiKey(e) ==>
      (g == Pass <==> configured.Some? && configured.value != "" && provided == configured)
  {
    if e in {Heartbeat, LogActivity, UploadScreenshot} then VerifyApiKey(provided, configured) else Pass
  }

  // ---------------------------------------------------------------------------
  // Heartbeat

  /** `heartbeat`. `body` is what `request.get_json()` yields: None when the body
      is not JSON (Flask raises, the handler answers 400). A JSON value that is
      not an object makes `data.get` raise: 500. Returns the status code and
      the employees collection afterwards. */
  function HandleHeartbeat(body: Option<Value>, employees: Employees, now: DateTime, storageFails: bool)
    : (r: (int, Employees))
    ensures r.0 == 200 <==> body.Some? && body.value.Object? && Truthy(Get(body.value.fields, "employee_id", Null))
    ensures r.0 == 500 <==> body.Some? && body.value != Null && !body.value.Object?
    ensures r.0 != 200 ==> r.1 == employees
    ensures r.0 == 200 && !storageFails && Get(body.value.fields, "employee_id", Null).Str? ==>
      Get(body.value.fields, "employee_id", Null).s in r.1
    ensures forall id :: id in employees && (r.0 != 200 || Get(body.value.fields, "employee_id", Null) != Str(id)) ==>
      id in r.1 && r.1[id] == employees[id]
    ensures r.0 == 200 && (storageFails || !Get(body.value.fields, "employee_id", Null).Str?) ==> r.1 == employees
    ensures r.0 == 200 && !storageFails && Get(body.value.fields, "employee_id", Null).Str? ==>
      var id := Get(body.value.fields, "employee_id", Null).s;
      && id in r.1 && r.1.Keys == employees.Keys + {id}
      && r.1[id].lastSeen == now && r.1[id].updatedAt == now
      && (id in employees ==>
            && r.1[id].displayName == employees[id].displayName && r.1[id].status == employees[id].status
            && r.1[id].firstSeen == employees[id].firstSeen && r.1[id].createdAt == employees[id].createdAt)
      && (id !in employees ==>
            r.1[id].status == PendingRename && r.1[id].firstSeen == now && r.1[id].createdAt == now)
  {
    if body.None? || body.value == Null then (400, employees)
    else if !body.value.Object? then (500, employees)
    else
      var data := body.value.fields;
      var employeeId := Get(data, "employee_id", Null);
      var hostname := Get(data, "hostname", employeeId);
      if !Truthy(employeeId) then (400, employees)
      else if !employeeId.Str? then (200, employees)
      else
        var hint := if hostname != employeeId then Some(hostname) else None;
        (200, CreateEmployee(employees, employeeId.s, hint, now, storageFails).employees)
  }

  /** A first heartbeat that carries a hostname different from the id names the
      new employee after that hostname (when it is truthy). */
  lemma HeartbeatNamesByHostname(fields: map<string, Value>, id: string, hostname: Value,
                                 employees: Employees, now: DateTime)
    requires id != "" && Get(fields, "employee_id", Null) == Str(id)
    requires Get(fields, "hostname", Str(id)) == hostname && Truthy(hostname) && hostname != Str(id)
    requires id !in employees
    ensures var r := HandleHeartbeat(Some(Object(fields)), employees, now, false);
      && r.0 == 200
      && r.1[id].displayName == hostname
      && r.1[id].status == PendingRename
  {
  }

  // ---------------------------------------------------------------------------
  // One entry of an activity batch

  /** `datetime.fromisoformat(v)`: a non-string raises TypeError and an
      unparsable string raises ValueError; both mark the entry malformed. */
  function ParseTime(v: Value, parse: string -> Option<ValidDateTime>): (r: Option<ValidDateTime>)
    ensures r.Some? ==> v.Str? && r == parse(v.s)
    ensures v.Str? ==> r == parse(v.s)
  {
    if v.Str? then parse(v.s) else None
  }

  /** `int((end - start).total_seconds())` guarded by the negative check:
      None when the subtraction raises (naive against aware) or is negative. */
  function ComputedDuration(start: ValidDateTime, end: ValidDateTime): (r: Option<nat>)
    ensures r.Some? <==> (start.offset.Some? <==> end.offset.Some?) && UtcMicros(end) >= UtcMicros(start)
    ensures r.Some? ==>
      r.value * MicrosPerSecond <= UtcMicros(end) - UtcMicros(start) < (r.value + 1) * MicrosPerSecond
  {
    var e := Elapsed(start, end);
    if e.None? || e.value < 0 then None else Some(e.value / MicrosPerSecond)
  }

  /** The duration stored for an entry: a non-negative number is kept
      (truncated), anything else is replaced by the elapsed whole seconds. */
  function DurationOf(dur: Value, start: ValidDateTime, end: ValidDateTime): (r: Option<nat>)
    ensures dur.Int? && dur.i >= 0 ==> r == Some(dur.i)
    ensures IsNumber(dur) && !IsNegative(dur) ==> r == TruncateNonNegative(dur)
    ensures !IsNumber(dur) || IsNegative(dur) ==> r == ComputedDuration(start, end)
  {
    if IsNumber(dur) && !IsNegative(dur) then TruncateNonNegative(dur) else ComputedDuration(start, end)
  }

  /** What the loop body does with one entry. `PreparedThenRaised` is an entry
      whose document was appended and counted as processed, after which the
      debug line's `doc['window_title'][:30]` raised (the title is neither a
      string nor a list), so it is counted as malformed as well. */
  datatype Prep = Rejected | Prepared(doc: LogDoc) | PreparedThenRaised(doc: LogDoc)

  /** A document as every prepared entry of a batch has it. */
  predicate BatchDoc(d: LogDoc, employeeId: Value, batchTs: DateTime) {
    && d.ActivityDoc?
    && d.employeeId == employeeId
    && d.timestamp == batchTs
    && d.durationSeconds >= 0
    && d.LogType() == "activity"
  }

  /** The fields of an entry the validator reads, with `dict.get` semantics. */
  function StartOf(fields: map<string, Value>): Value { Get(fields, "start_time", Null) }
  function EndOf(fields: map<string, Value>): Value { Get(fields, "end_time", Null) }
  function DurationField(fields: map<string, Value>): Value { Get(fields, "duration_seconds", Null) }

  /** The presence test: both times truthy and a duration that is not None. */
  predicate HasTimes(fields: map<string, Value>) {
    Truthy(StartOf(fields)) && Truthy(EndOf(fields)) && DurationField(fields) != Null
  }

  function PrepareEntry(entry: Value, employeeId: Value, batchTs: DateTime,
                        parse: string -> Option<ValidDateTime>): (p: Prep)
    ensures p != Rejected ==>
      && entry.Object? && HasTimes(entry.fields)
      && ParseTime(StartOf(entry.fields), parse).Some? && ParseTime(EndOf(entry.fields), parse).Some?
    ensures p != Rejected ==> BatchDoc(p.doc, employeeId, batchTs)
    ensures p != Rejected ==>
      && p.doc.startTime == ParseTime(StartOf(entry.fields), parse).value
      && p.doc.endTime == ParseTime(EndOf(entry.fields), parse).value
      && Some(p.doc.durationSeconds as nat) == DurationOf(DurationField(entry.fields), p.doc.startTime, p.doc.endTime)
    ensures p != Rejected ==>
      && ("window_title" in entry.fields ==> p.doc.windowTitle == entry.fields["window_title"])
      && ("window_title" !in entry.fields ==> p.doc.windowTitle == Str("N/A"))
      && ("process_name" in entry.fields ==> p.doc.processName == entry.fields["process_name"])
      && ("process_name" !in entry.fields ==> p.doc.processName == Str("N/A"))
      && ("is_active" in entry.fields ==> p.doc.isActive == entry.fields["is_active"])
      && ("is_active" !in entry.fields ==> p.doc.isActive == Bool(true))
    ensures p.PreparedThenRaised? <==> p != Rejected && !(p.doc.windowTitle.Str? || p.doc.windowTitle.Array?)
    ensures entry.Object? && HasTimes(entry.fields)
      && ParseTime(StartOf(entry.fields), parse).Some? && ParseTime(EndOf(entry.fields), parse).Some?
      && DurationOf(DurationField(entry.fields), ParseTime(StartOf(entry.fields), parse).value,
                    ParseTime(EndOf(entry.fields), parse).value).Some?
      ==> p != Rejected
  {
    if !entry.Object? then Rejected
    else
      var fields := entry.fields;
      if !HasTimes(fields) then Rejected
      else
        var start := ParseTime(StartOf(fields), parse);
        var end := ParseTime(EndOf(fields), parse);
        if start.None? || end.None? then Rejected
        else
          var duration := DurationOf(DurationField(fields), start.value, end.value);
          if duration.None? then Rejected
          else
            var doc := ActivityDoc(employeeId, batchTs,
                                   Get(fields, "window_title", Str("N/A")),
                                   Get(fields, "process_name", Str("N/A")),
                                   start.value, end.value, duration.value,
                                   Get(fields, "is_active", Bool(true)));
            if doc.windowTitle.Str? || doc.windowTitle.Array? then Prepared(doc) else PreparedThenRaised(doc)
  }

  /** A None duration rejects the entry; it is never recomputed. */
  lemma NullDurationRejected(fields: map<string, Value>, employeeId: Value, batchTs: DateTime,
                             parse: string -> Option<ValidDateTime>)
    requires DurationField(fields) == Null
    ensures PrepareEntry(Object(fields), employeeId, batchTs, parse) == Rejected
  {
  }

  /** A supplied non-negative integer duration is stored as given, even when it
      disagrees with end minus start. */
  lemma SuppliedDurationKept(fields: map<string, Value>, employeeId: Value, batchTs: DateTime,
                             parse: string -> Option<ValidDateTime>, n: nat)
    requires Truthy(StartOf(fields)) && Truthy(EndOf(fields)) && DurationField(fields) == Int(n)
    requires ParseTime(StartOf(fields), parse).Some? && ParseTime(EndOf(fields), parse).Some?
    ensures var p := PrepareEntry(Object(fields), employeeId, batchTs, parse);
      p != Rejected && p.doc.durationSeconds == n
  {
  }

  /** A non-numeric or negative duration is replaced by the elapsed whole
      seconds; the entry is rejected when end precedes start. */
  lemma BadDurationRecomputed(fields: map<string, Value>, employeeId: Value, batchTs: DateTime,
                              parse: string -> Option<ValidDateTime>)
    requires HasTimes(fields)
    requires !IsNumber(DurationField(fields)) || IsNegative(DurationField(fields))
    requires ParseTime(StartOf(fields), parse).Some? && ParseTime(EndOf(fields), parse).Some?
    requires var s := ParseTime(StartOf(fields), parse).value; var e := ParseTime(EndOf(fields), parse).value;
      s.offset.Some? <==> e.offset.Some?
    ensures var s := ParseTime(StartOf(fields), parse).value; var e := ParseTime(EndOf(fields), parse).value;
      var p := PrepareEntry(Object(fields), employeeId, batchTs, parse);
      && (UtcMicros(e) < UtcMicros(s) ==> p == Rejected)
      && (UtcMicros(e) >= UtcMicros(s) ==>
            p != Rejected && p.doc.durationSeconds == (UtcMicros(e) - UtcMicros(s)) / MicrosPerSecond)
  {
  }

  // ---------------------------------------------------------------------------
  // The batch loop

  datatype Tally = Tally(docs: seq<LogDoc>, processed: nat, malformed: nat)

  /** What the loop body does with each entry, in entry order. */
  function Preps(entries: seq<Value>, employeeId: Value, batchTs: DateTime,
                 parse: string -> Option<ValidDateTime>): (ps: seq<Prep>)
    ensures |ps| == |entries|
    ensures forall i :: 0 <= i < |entries| ==> ps[i] == PrepareEntry(entries[i], employeeId, batchTs, parse)
  {
    seq(|entries|, i requires 0 <= i < |entries| => PrepareEntry(entries[i], employeeId, batchTs, parse))
  }

  /** The number of entries the loop turns into a document. */
  function KeptCount(ps: seq<Prep>): (n: nat)
    ensures n <= |ps|
  {
    if ps == [] then 0 else KeptCount(ps[..|ps| - 1]) + (if ps[|ps| - 1] != Rejected then 1 else 0)
  }

  /** The number of entries whose debug line raises after the append. */
  function RaisedCount(ps: seq<Prep>): (n: nat)
    ensures n <= KeptCount(ps)
  {
    if ps == [] then 0 else RaisedCount(ps[..|ps| - 1]) + (if ps[|ps| - 1].PreparedThenRaised? then 1 else 0)
  }

  /** The accumulation of the loop over the per-entry results: a rejected entry
      bumps malformed, a prepared one is appended and bumps processed, and one
      that raised after the append bumps both. */
  function Collect(ps: seq<Prep>): (t: Tally)
    ensures t.processed == |t.docs| == KeptCount(ps)
    ensures t.malformed == |ps| - |t.docs| + RaisedCount(ps)
    ensures forall d :: d in t.docs ==> Prepared(d) in ps || PreparedThenRaised(d) in ps
  {
    if ps == [] then Tally([], 0, 0)
    else
      var t := Collect(ps[..|ps| - 1]);
      match ps[|ps| - 1]
      case Rejected => t.(malformed := t.malformed + 1)
      case Prepared(doc) => Tally(t.docs + [doc], t.processed + 1, t.malformed)
      case PreparedThenRaised(doc) => Tally(t.docs + [doc], t.processed + 1, t.malformed + 1)
  }

  /** The collected documents are those of the entries that were not rejected,
      in entry order: the document of entry i sits at the position given by the
      number of kept entries before it. */
  lemma {:induction false} CollectPlacesDocs(ps: seq<Prep>)
    ensures forall i :: 0 <= i < |ps| && ps[i] != Rejected ==>
      KeptCount(ps[..i]) < |Collect(ps).docs| && Collect(ps).docs[KeptCount(ps[..i])] == ps[i].doc
  {
    if ps != [] {
      var n := |ps| - 1;
      var init := ps[..n];
      CollectPlacesDocs(init);
      var t0, t := Collect(init), Collect(ps);
      forall i | 0 <= i < |ps| && ps[i] != Rejected
        ensures KeptCount(ps[..i]) < |t.docs| && t.docs[KeptCount(ps[..i])] == ps[i].doc
      {
        if i < n {
          assert init[..i] == ps[..i] && init[i] == ps[i];
          assert t.docs[..|t0.docs|] == t0.docs;
        } else {
          assert ps[..i] == init;
        }
      }
    }
  }

  /** The loop of `log_activity` over the entries, in order. The documents are
      those of the entries that were not rejected, each at the position given
      by the number of kept entries before it; every rejected entry and every
      entry that raised after the append counts as malformed. */
  function PrepareAll(entries: seq<Value>, employeeId: Value, batchTs: DateTime,
                      parse: string -> Option<ValidDateTime>): (t: Tally)
    ensures var ps := Preps(entries, employeeId, batchTs, parse);
      && t.processed == |t.docs| == KeptCount(ps)
      && t.malformed == |entries| - |t.docs| + RaisedCount(ps)
      && (forall i :: 0 <= i < |entries| && PrepareEntry(entries[i], employeeId, batchTs, parse) != Rejected ==>
            && KeptCount(ps[..i]) < |t.docs|
            && t.docs[KeptCount(ps[..i])] == PrepareEntry(entries[i], employeeId, batchTs, parse).doc)
    ensures t.docs == [] ==> t.malformed == |entries|
    ensures forall i :: 0 <= i < |t.docs| ==> BatchDoc(t.docs[i], employeeId, batchTs)
  {
    var ps := Preps(entries, employeeId, batchTs, parse);
    CollectPlacesDocs(ps);
    BatchDocsOnly(ps, employeeId, batchTs, Collect(ps).docs);
    Collect(ps)
  }

  /** Documents drawn from prepared entries of one batch are batch documents. */
  lemma BatchDocsOnly(ps: seq<Prep>, employeeId: Value, batchTs: DateTime, docs: seq<LogDoc>)
    requires forall i :: 0 <= i < |ps| && ps[i] != Rejected ==> BatchDoc(ps[i].doc, employeeId, batchTs)
    requires forall d :: d in docs ==> Prepared(d) in ps || PreparedThenRaised(d) in ps
    ensures forall i :: 0 <= i < |docs| ==> BatchDoc(docs[i], employeeId, batchTs)
  {
    forall i | 0 <= i < |docs|
      ensures BatchDoc(docs[i], employeeId, batchTs)
    {
      assert docs[i] in docs;
      if Prepared(docs[i]) in ps {
        var k :| 0 <= k < |ps| && ps[k] == Prepared(docs[i]);
      } else {
        var k :| 0 <= k < |ps| && ps[k] == PreparedThenRaised(docs[i]);
      }
    }
  }

  /** When no window title is of a type the debug slice rejects, every entry
      increments exactly one of the two counters. */
  lemma {:induction false} CountersPartitionEntries(ps: seq<Prep>)
    requires forall i :: 0 <= i < |ps| ==> !ps[i].PreparedThenRaised?
    ensures Collect(ps).processed + Collect(ps).malformed == |ps|
  {
    if ps != [] {
      var init := ps[..|ps| - 1];
      assert forall i :: 0 <= i < |init| ==> init[i] == ps[i];
      CountersPartitionEntries(init);
    }
  }

  // ---------------------------------------------------------------------------
  // The batch outcome

  datatype LogOutcome =
    | InvalidPayload
    | NotAnObject
    | MissingEmployee
    | ActivitiesNotList
    | EmptyBatch
    | Logged(inserted: nat, malformed: nat)
    | InsertFailed
    | AllMalformed(malformed: nat)
    | NothingToLog
  {
    function Status(): int {
      match this
      case InvalidPayload => 400
      case NotAnObject => 500
      case MissingEmployee => 400
      case ActivitiesNotList => 400
      case EmptyBatch => 200
      case Logged(_, _) => 201
      case InsertFailed => 500
      case AllMalformed(_) => 400
      case NothingToLog => 200
    }
  }

  /** Which storage call raises: `insert_many` (unordered, so any subset of
      the documents may have landed), or the `last_seen` update after it. */
  datatype BulkFault = NoFault | InsertRaises(landed: set<nat>) | UpdateRaises

  /** The documents at the given positions, in order. */
  function Landed(docs: seq<LogDoc>, landed: set<nat>): (r: seq<LogDoc>)
    ensures |r| <= |docs|
    ensures forall i :: 0 <= i < |r| ==> r[i] in docs
  {
    if docs == [] then []
    else Landed(docs[..|docs| - 1], landed) + (if |docs| - 1 in landed then [docs[|docs| - 1]] else [])
  }

  /** `update_one({"employee_id": id}, {"$set": {"last_seen": ts}})`: no upsert,
      and only last_seen changes. */
  function TouchLastSeen(employees: Employees, id: Value, ts: DateTime): (r: Employees)
    ensures r.Keys == employees.Keys
    ensures forall k :: k in employees && id != Str(k) ==> r[k] == employees[k]
    ensures id.Str? && id.s in employees ==> r[id.s] == employees[id.s].(lastSeen := ts)
  {
    if id.Str? && id.s in employees then employees[id.s := employees[id.s].(lastSeen := ts)] else employees
  }

  datatype LogResult = LogResult(outcome: LogOutcome, employees: Employees, logs: seq<LogDoc>)

  /** A request body that passes the batch-level gates: an object with a truthy
      employee_id and a non-empty list of activities. */
  predicate AcceptedBatch(body: Option<Value>) {
    && body.Some? && body.value.Object?
    && Truthy(Get(body.value.fields, "employee_id", Null))
    && Get(body.value.fields, "activities", Null).Array?
    && Get(body.value.fields, "activities", Null).items != []
  }

  /** `log_activity`, with `now` the server batch timestamp. */
  function HandleLogActivity(body: Option<Value>, employees: Employees, logs: seq<LogDoc>, now: DateTime,
                             parse: string -> Option<ValidDateTime>, fault: BulkFault): (r: LogResult)
    ensures r.outcome != NothingToLog
    ensures AcceptedBatch(body) <==> r.outcome.Logged? || r.outcome.InsertFailed? || r.outcome.AllMalformed?
    ensures r.outcome == MissingEmployee <==>
      body.Some? && body.value.Object? && !Truthy(Get(body.value.fields, "employee_id", Null))
    ensures !(r.outcome.Logged? || r.outcome.InsertFailed?) ==> r.employees == employees && r.logs == logs
    ensures r.outcome.InsertFailed? ==> r.employees == employees && |logs| <= |r.logs| && r.logs[..|logs|] == logs
    ensures r.outcome.Logged? ==>
      var id := Get(body.value.fields, "employee_id", Null);
      && fault.NoFault?
      && r.outcome.inserted > 0
      && |r.logs| == |logs| + r.outcome.inserted && r.logs[..|logs|] == logs
      && (forall i :: |logs| <= i < |r.logs| ==> BatchDoc(r.logs[i], id, now))
      && r.employees == TouchLastSeen(employees, id, now)
    ensures r.outcome.AllMalformed? ==>
      r.outcome.malformed == |Get(body.value.fields, "activities", Null).items| > 0
    ensures AcceptedBatch(body) ==>
      var id, items := Get(body.value.fields, "employee_id", Null), Get(body.value.fields, "activities", Null).items;
      var t := PrepareAll(items, id, now, parse);
      && (t.docs == [] ==> r == LogResult(AllMalformed(|items|), employees, logs))
      && (t.docs != [] && fault.NoFault? ==>
            r == LogResult(Logged(|t.docs|, t.malformed), TouchLastSeen(employees, id, now), logs + t.docs))
      && (t.docs != [] && fault.InsertRaises? ==>
            r == LogResult(InsertFailed, employees, logs + Landed(t.docs, fault.landed)))
      && (t.docs != [] && fault.UpdateRaises? ==> r == LogResult(InsertFailed, employees, logs + t.docs))
  {
    if body.None? || body.value == Null then LogResult(InvalidPayload, employees, logs)
    else if !body.value.Object? then LogResult(NotAnObject, employees, logs)
    else
      var data := body.value.fields;
      var employeeId := Get(data, "employee_id", Null);
      var activities := Get(data, "activities", Null);
      if !Truthy(employeeId) then LogResult(MissingEmployee, employees, logs)
      else if !activities.Array? then LogResult(ActivitiesNotList, employees, logs)
      else if activities.items == [] then LogResult(EmptyBatch, employees, logs)
      else
        var t := PrepareAll(activities.items, employeeId, now, parse);
        if t.docs != [] then
          match fault
          case NoFault =>
            LogResult(Logged(|t.docs|, t.malformed), TouchLastSeen(employees, employeeId, now), logs + t.docs)
          case InsertRaises(landed) => LogResult(InsertFailed, employees, logs + Landed(t.docs, landed))
          case UpdateRaises => LogResult(InsertFailed, employees, logs + t.docs)
        else if t.malformed > 0 then LogResult(AllMalformed(t.malformed), employees, logs)
        else LogResult(NothingToLog, employees, logs)
  }

  // ---------------------------------------------------------------------------
  // Screenshot storage keys

  /** `uuid.uuid4().hex[:8]`. */
  type HexSuffix = s: string | |s| == 8 && forall i :: 0 <= i < |s| ==> IsLowerHex(s[i])
    witness "00000000"

  /** The characters the sanitiser keeps: `c.isalnum() or c in ['-', '_']`. */
  predicate SafeChar(c: char, isAlnum: char -> bool) {
    isAlnum(c) || c == '-' || c == '_'
  }

  /** The character-by-character sanitiser of the employee id. */
  function SanitizeId(id: string, isAlnum: char -> bool): (r: string)
    ensures |r| == |id|
    ensures forall i :: 0 <= i < |id| ==> SafeChar(r[i], isAlnum)
    ensures forall i :: 0 <= i < |id| ==> (SafeChar(id[i], isAlnum) <==> r[i] == id[i])
    ensures forall i :: 0 <= i < |id| && !SafeChar(id[i], isAlnum) ==> r[i] == '_'
  {
    if id == [] then []
    else [if SafeChar(id[0], isAlnum) then id[0] else '_'] + SanitizeId(id[1..], isAlnum)
  }

  /** Sanitising twice changes nothing further. */
  lemma SanitizeIdempotent(id: string, isAlnum: char -> bool)
    ensures SanitizeId(SanitizeId(id, isAlnum), isAlnum) == SanitizeId(id, isAlnum)
  {
    var once := SanitizeId(id, isAlnum);
    var twice := SanitizeId(once, isAlnum);
    assert forall i :: 0 <= i < |once| ==> twice[i] == once[i];
  }

  /** `%Y%m%d`. */
  function DatePart(t: ValidDateTime): string {
    ZeroPad(t.date.year, 4) + ZeroPad(t.date.month, 2) + ZeroPad(t.date.day, 2)
  }

  /** `%H%M%S`. */
  function ClockPart(t: ValidDateTime): string {
    ZeroPad(t.hour, 2) + ZeroPad(t.minute, 2) + ZeroPad(t.second, 2)
  }

  /** `timestamp.strftime('%Y%m%d_%H%M%S_%f')`. */
  function StampText(t: ValidDateTime): string {
    DatePart(t) + "_" + ClockPart(t) + "_" + ZeroPad(t.micro, 6)
  }

  const StampLength: nat := 22

  /** Three padded fields of widths 4, 2, 2 (date) or 2, 2, 2 (clock) read back
      from their columns. */
  lemma ThreeFields(x: nat, wx: nat, y: nat, z: nat)
    requires wx == 4 || wx == 2
    requires x < Pow10(wx) && y < 100 && z < 100
    ensures var s := ZeroPad(x, wx) + ZeroPad(y, 2) + ZeroPad(z, 2);
      && |s| == wx + 4
      && AllDigits(s[..wx]) && ParseDigits(s[..wx]) == x
      && AllDigits(s[wx..wx + 2]) && ParseDigits(s[wx..wx + 2]) == y
      && AllDigits(s[wx + 2..]) && ParseDigits(s[wx + 2..]) == z
  {
    PaddedField(x, wx);
    PaddedField(y, 2);
    PaddedField(z, 2);
    Concat3(ZeroPad(x, wx), ZeroPad(y, 2), ZeroPad(z, 2));
  }

  /** Where the pieces of `d_c_u` sit, for an 8-character date part, a
      6-character clock part and a 6-character microsecond part. */
  lemma StampColumns(d: string, c: string, u: string)
    requires |d| == 8 && |c| == 6 && |u| == 6
    ensures var s := d + "_" + c + "_" + u;
      && |s| == StampLength && s[8] == '_' && s[15] == '_'
      && s[0..4] == d[..4] && s[4..6] == d[4..6] && s[6..8] == d[6..]
      && s[9..11] == c[..2] && s[11..13] == c[2..4] && s[13..15] == c[4..]
      && s[16..22] == u
  {
    Concat5(d, "_", c, "_", u);
  }

  /** The stamp has fixed width and every field reads back from its columns. */
  lemma StampRoundTrip(t: ValidDateTime)
    ensures |StampText(t)| == StampLength
    ensures var s := StampText(t);
      && s[8] == '_' && s[15] == '_'
      && AllDigits(s[0..4]) && ParseDigits(s[0..4]) == t.date.year
      && AllDigits(s[4..6]) && ParseDigits(s[4..6]) == t.date.month
      && AllDigits(s[6..8]) && ParseDigits(s[6..8]) == t.date.day
      && AllDigits(s[9..11]) && ParseDigits(s[9..11]) == t.hour
      && AllDigits(s[11..13]) && ParseDigits(s[11..13]) == t.minute
      && AllDigits(s[13..15]) && ParseDigits(s[13..15]) == t.second
      && AllDigits(s[16..22]) && ParseDigits(s[16..22]) == t.micro
  {
    ThreeFields(t.date.year, 4, t.date.month, t.date.day);
    ThreeFields(t.hour, 2, t.minute, t.second);
    PaddedField(t.micro, 6);
    StampColumns(DatePart(t), ClockPart(t), ZeroPad(t.micro, 6));
  }

  /** The sanitised id, with the `"unknown_emp"` fallback for an empty result. */
  function SafeEmployeeId(id: string, isAlnum: char -> bool): string {
    var safe := SanitizeId(id, isAlnum);
    if safe == "" then "unknown_emp" else safe
  }

  /** `f"{stamp}_{safe_employee_id}_{hex8}.png"`. */
  function ScreenshotKey(t: ValidDateTime, id: string, isAlnum: char -> bool, suffix: HexSuffix): string {
    StampText(t) + "_" + SafeEmployeeId(id, isAlnum) + "_" + suffix + ".png"
  }

  /** The fallback is dead: the handler has already rejected an empty id, and a
      non-empty id sanitises to a non-empty string. The key splits back into
      stamp, sanitised id and suffix by position. */
  lemma ScreenshotKeyShape(t: ValidDateTime, id: string, isAlnum: char -> bool, suffix: HexSuffix)
    requires id != ""
    ensures SafeEmployeeId(id, isAlnum) == SanitizeId(id, isAlnum)
    ensures var k := ScreenshotKey(t, id, isAlnum, suffix);
      && |k| == StampLength + |id| + 14
      && k[..StampLength] == StampText(t)
      && k[StampLength] == '_'
      && k[StampLength + 1..StampLength + 1 + |id|] == SanitizeId(id, isAlnum)
      && k[StampLength + 1 + |id|] == '_'
      && k[StampLength + 2 + |id|..|k| - 4] == suffix
      && k[|k| - 4..] == ".png"
  {
    StampRoundTrip(t);
    KeyColumns(StampText(t), SanitizeId(id, isAlnum), suffix);
  }

  lemma KeyColumns(stamp: string, safe: string, suffix: string)
    requires |stamp| == StampLength && |suffix| == 8
    ensures var k := stamp + "_" + safe + "_" + suffix + ".png";
      && |k| == StampLength + |safe| + 14
      && k[..StampLength] == stamp
      && k[StampLength] == '_'
      && k[StampLength + 1..StampLength + 1 + |safe|] == safe
      && k[StampLength + 1 + |safe|] == '_'
      && k[StampLength + 2 + |safe|..|k| - 4] == suffix
      && k[|k| - 4..] == ".png"
  {
    var k := stamp + "_" + safe + "_" + suffix + ".png";
    Concat5(stamp + "_", safe, "_", suffix, ".png");
    assert (stamp + "_")[..StampLength] == stamp;
  }

  // ---------------------------------------------------------------------------
  // Screenshot upload

  datatype FilePart = FilePart(filename: string, content: seq<bv8>)

  /** The multipart request: the `screenshot` file part and the two form fields. */
  datatype UploadForm = UploadForm(file: Option<FilePart>, employeeId: Option<string>, timestamp: Option<string>)

  /** `file.save` either completes or raises, possibly after writing part of the file. */
  datatype SaveFault = Saved | SaveRaises(partial: Option<seq<bv8>>)

  datatype UploadFaults = UploadFaults(save: SaveFault, insertRaises: bool, updateRaises: bool, removeRaises: bool)

  datatype UploadOutcome = NoFilePart | MissingFields | BadTimestamp | NoUploadFolder | Uploaded(key: string) | StoreFailed
  {
    function Status(): int {
      match this
      case NoFilePart => 400
      case MissingFields => 400
      case BadTimestamp => 400
      case NoUploadFolder => 500
      case Uploaded(_) => 201
      case StoreFailed => 500
    }
  }

  /** The state the upload touches: employees, the activity_logs collection and
      the upload folder as a map from file name to contents. */
  datatype Store = Store(employees: Employees, logs: seq<LogDoc>, blobs: map<string, seq<bv8>>)

  datatype UploadResult = UploadResult(outcome: UploadOutcome, store: Store)

  /** The request checks that precede any write: a file part with a non-empty
      filename (an empty FileStorage is falsy), a non-empty employee_id and
      timestamp, and a timestamp that parses. */
  predicate UploadRequestValid(form: UploadForm, parse: string -> Option<ValidDateTime>) {
    && form.file.Some? && form.file.value.filename != ""
    && form.employeeId.Some? && form.employeeId.value != ""
    && form.timestamp.Some? && form.timestamp.value != ""
    && parse(form.timestamp.value).Some?
  }

  /** Every screenshot entry names a file present in the upload folder. */
  predicate RecordsBacked(st: Store) {
    forall i :: 0 <= i < |st.logs| && st.logs[i].ScreenshotDoc? ==> st.logs[i].screenshotPath in st.blobs
  }

  /** The except branch: remove the file if it exists, unless removal raises. */
  function Cleanup(blobs: map<string, seq<bv8>>, key: string, removeRaises: bool): (r: map<string, seq<bv8>>)
    ensures !removeRaises ==> key !in r
    ensures forall k :: k != key && k in blobs ==> k in r && r[k] == blobs[k]
    ensures r.Keys <= blobs.Keys
  {
    if key in blobs && !removeRaises then blobs - {key} else blobs
  }

  /** `current_app.config.get('UPLOAD_FOLDER')` is set and truthy. */
  predicate FolderSet(uploadFolder: Option<string>) {
    uploadFolder.Some? && uploadFolder.value != ""
  }

  /** `upload_screenshot`; `now` is the clock reading for last_seen. */
  function HandleUpload(form: UploadForm, st: Store, now: DateTime, parse: string -> Option<ValidDateTime>,
                        isAlnum: char -> bool, suffix: HexSuffix, uploadFolder: Option<string>,
                        faults: UploadFaults): (r: UploadResult)
    ensures r.outcome.Status() != 201 && r.outcome != StoreFailed ==> r.store == st
    ensures r.outcome.Status() == 400 <==> !UploadRequestValid(form, parse)
    ensures r.outcome == NoUploadFolder <==> UploadRequestValid(form, parse) && !FolderSet(uploadFolder)
    ensures r.outcome.Uploaded? ==>
      var ts := parse(form.timestamp.value).value;
      && UploadRequestValid(form, parse)
      && r.outcome.key == ScreenshotKey(ts, form.employeeId.value, isAlnum, suffix)
      && r.store.blobs == st.blobs[r.outcome.key := form.file.value.content]
      && r.store.logs == st.logs + [ScreenshotDoc(form.employeeId.value, ts, r.outcome.key)]
      && r.store.employees == TouchLastSeen(st.employees, Str(form.employeeId.value), now)
    ensures r.outcome == StoreFailed ==> r.store.employees == st.employees
    ensures r.outcome == StoreFailed && !faults.removeRaises ==>
      ScreenshotKey(parse(form.timestamp.value).value, form.employeeId.value, isAlnum, suffix) !in r.store.blobs
    ensures forall k :: k in st.blobs && k !in r.store.blobs ==>
      UploadRequestValid(form, parse)
      && k == ScreenshotKey(parse(form.timestamp.value).value, form.employeeId.value, isAlnum, suffix)
    ensures UploadRequestValid(form, parse) && FolderSet(uploadFolder) ==>
      && (faults.save.Saved? && !faults.insertRaises && !faults.updateRaises <==> r.outcome.Uploaded?)
      && (faults.save.SaveRaises? || faults.insertRaises || faults.updateRaises <==> r.outcome == StoreFailed)
    ensures r.outcome == StoreFailed && (faults.save.SaveRaises? || faults.insertRaises) ==> r.store.logs == st.logs
    ensures r.outcome == StoreFailed && faults.save.Saved? && !faults.insertRaises ==>
      var ts := parse(form.timestamp.value).value;
      r.store.logs == st.logs + [ScreenshotDoc(form.employeeId.value, ts,
                                               ScreenshotKey(ts, form.employeeId.value, isAlnum, suffix))]
  {
    if form.file.None? then UploadResult(NoFilePart, st)
    else if form.employeeId.None? || form.employeeId.value == "" || form.timestamp.None? || form.timestamp.value == ""
         || form.file.value.filename == "" then UploadResult(MissingFields, st)
    else if parse(form.timestamp.value).None? then UploadResult(BadTimestamp, st)
    else if uploadFolder.None? || uploadFolder.value == "" then UploadResult(NoUploadFolder, st)
    else
      var id := form.employeeId.value;
      var ts := parse(form.timestamp.value).value;
      StoreScreenshot(st, id, ts, ScreenshotKey(ts, id, isAlnum, suffix), form.file.value.content, now, faults)
  }

  /** The try block of `upload_screenshot`: save the file, insert the entry,
      touch last_seen, and on any exception remove the file if it exists. */
  function StoreScreenshot(st: Store, id: string, ts: ValidDateTime, key: string, content: seq<bv8>,
                           now: DateTime, faults: UploadFaults): (r: UploadResult)
    ensures r.outcome.Uploaded? || r.outcome == StoreFailed
    ensures r.outcome.Uploaded? <==> faults.save.Saved? && !faults.insertRaises && !faults.updateRaises
    ensures r.outcome.Uploaded? ==>
      r == UploadResult(Uploaded(key), Store(TouchLastSeen(st.employees, Str(id), now),
                                             st.logs + [ScreenshotDoc(id, ts, key)], st.blobs[key := content]))
    ensures r.outcome == StoreFailed ==> r.store.employees == st.employees
    ensures r.outcome == StoreFailed && !faults.removeRaises ==> key !in r.store.blobs
    ensures forall k :: k in st.blobs && k !in r.store.blobs ==> k == key
    ensures r.outcome == StoreFailed && (faults.save.SaveRaises? || faults.insertRaises) ==> r.store.logs == st.logs
    ensures r.outcome == StoreFailed && faults.save.Saved? && !faults.insertRaises ==>
      r.store.logs == st.logs + [ScreenshotDoc(id, ts, key)]
  {
    match faults.save
    case SaveRaises(partial) =>
      var blobs := if partial.Some? then st.blobs[key := partial.value] else st.blobs;
      UploadResult(StoreFailed, st.(blobs := Cleanup(blobs, key, faults.removeRaises)))
    case Saved =>
      var blobs := st.blobs[key := content];
      if faults.insertRaises then
        UploadResult(StoreFailed, st.(blobs := Cleanup(blobs, key, faults.removeRaises)))
      else
        var logs := st.logs + [ScreenshotDoc(id, ts, key)];
        if faults.updateRaises then
          UploadResult(StoreFailed, Store(st.employees, logs, Cleanup(blobs, key, faults.removeRaises)))
        else
          UploadResult(Uploaded(key), Store(TouchLastSeen(st.employees, Str(id), now), logs, blobs))
  }

  /** As written, a failure of the last_seen update after the metadata insert
      sends the handler into the cleanup branch: the saved file is removed while
      its activity_logs entry stays, so the entry points at a missing file. */
  lemma UploadOrphansRecordOnUpdateFailure(form: UploadForm, st: Store, now: DateTime,
                                           parse: string -> Option<ValidDateTime>, isAlnum: char -> bool,
                                           suffix: HexSuffix, folder: string)
    requires UploadRequestValid(form, parse) && folder != ""
    ensures var r := HandleUpload(form, st, now, parse, isAlnum, suffix, Some(folder),
                                  UploadFaults(Saved, false, true, false));
      && r.outcome == StoreFailed
      && |r.store.logs| == |st.logs| + 1
      && r.store.logs[|st.logs|].ScreenshotDoc?
      && r.store.logs[|st.logs|].screenshotPath !in r.store.blobs
      && !RecordsBacked(r.store)
  {
    var r := HandleUpload(form, st, now, parse, isAlnum, suffix, Some(folder),
                          UploadFaults(Saved, false, true, false));
    assert r.store.logs[|st.logs|].ScreenshotDoc?;
  }

  /** The upload with the cleanup confined to the steps before the metadata
      insert: once the entry exists the file is kept, and a failing last_seen
      update (a best-effort touch) no longer undoes the upload. */
  function HandleUploadFixed(form: UploadForm, st: Store, now: DateTime, parse: string -> Option<ValidDateTime>,
                             isAlnum: char -> bool, suffix: HexSuffix, uploadFolder: Option<string>,
                             faults: UploadFaults): (r: UploadResult)
    ensures r.outcome.Status() != 201 && r.outcome != StoreFailed ==> r.store == st
    ensures r.outcome.Status() == 400 <==> !UploadRequestValid(form, parse)
    ensures r.outcome == StoreFailed ==> r.store.logs == st.logs && r.store.employees == st.employees
    ensures r.outcome.Uploaded? ==>
      var ts := parse(form.timestamp.value).value;
      && r.outcome.key == ScreenshotKey(ts, form.employeeId.value, isAlnum, suffix)
      && r.store.blobs == st.blobs[r.outcome.key := form.file.value.content]
      && r.store.logs == st.logs + [ScreenshotDoc(form.employeeId.value, ts, r.outcome.key)]
      && r.store.employees == (if faults.updateRaises then st.employees
                               else TouchLastSeen(st.employees, Str(form.employeeId.value), now))
    ensures forall k :: k in st.blobs && k !in r.store.blobs ==>
      UploadRequestValid(form, parse)
      && k == ScreenshotKey(parse(form.timestamp.value).value, form.employeeId.value, isAlnum, suffix)
    ensures r.outcome == NoUploadFolder <==> UploadRequestValid(form, parse) && !FolderSet(uploadFolder)
    ensures UploadRequestValid(form, parse) && FolderSet(uploadFolder) ==>
      && (faults.save.Saved? && !faults.insertRaises <==> r.outcome.Uploaded?)
      && (faults.save.SaveRaises? || faults.insertRaises <==> r.outcome == StoreFailed)
  {
    var r := HandleUpload(form, st, now, parse, isAlnum, suffix, uploadFolder, faults.(updateRaises := false));
    if r.outcome.Uploaded? && faults.updateRaises then
      UploadResult(r.outcome, r.store.(employees := st.employees))
    else r
  }

  /** A storage key no existing entry refers to (the random suffix makes it fresh). */
  predicate KeyUnreferenced(st: Store, key: string) {
    forall i :: 0 <= i < |st.logs| && st.logs[i].ScreenshotDoc? ==> st.logs[i].screenshotPath != key
  }

  /** With the correction, an upload never leaves an entry without its file,
      whatever raises, provided the new key is fresh. */
  lemma UploadFixedKeepsRecordsBacked(form: UploadForm, st: Store, now: DateTime,
                                      parse: string -> Option<ValidDateTime>, isAlnum: char -> bool,
                                      suffix: HexSuffix, uploadFolder: Option<string>, faults: UploadFaults)
    requires RecordsBacked(st)
    requires UploadRequestValid(form, parse) ==>
      KeyUnreferenced(st, ScreenshotKey(parse(form.timestamp.value).value, form.employeeId.value, isAlnum, suffix))
    ensures RecordsBacked(HandleUploadFixed(form, st, now, parse, isAlnum, suffix, uploadFolder, faults).store)
  {
    var r := HandleUploadFixed(form, st, now, parse, isAlnum, suffix, uploadFolder, faults);
    forall i | 0 <= i < |r.store.logs| && r.store.logs[i].ScreenshotDoc?
      ensures r.store.logs[i].screenshotPath in r.store.blobs
    {
      if i < |st.logs| {
        assert r.store.logs[i] == st.logs[i];
        assert st.logs[i].screenshotPath in st.blobs;
      } else {
        assert r.outcome.Uploaded?;
      }
    }
  }
}

=== FILE: calendar.dfy ===
/** Python `datetime` values as the handlers use them: proleptic Gregorian
    dates in years 1..9999, times to the microsecond, an optional UTC offset
    (naive versus aware datetimes), and day numbers counted from 1970-01-01. */
module Calendar {
  import opened Common

  const MicrosPerSecond: int := 1_000_000
  const MicrosPerDay: int := 86_400_000_000

  predicate IsLeap(y: int) {
    y % 4 == 0 && (y % 100 != 0 || y % 400 == 0)
  }

  function DaysInMonth(y: int, m: int): (n: int)
    requires 1 <= m <= 12
    ensures 28 <= n <= 31
    ensures m == 2 ==> (n == 29 <==> IsLeap(y))
  {
    if m == 2 then (if IsLeap(y) then 29 else 28)
    else if m == 4 || m == 6 || m == 9 || m == 11 then 30
    else 31
  }

  datatype Date = Date(year: int, month: int, day: int) {
    /** The dates a Python `date` can hold. */
    predicate Valid() {
      1 <= year <= 9999 && 1 <= month <= 12 && 1 <= day <= DaysInMonth(year, month)
    }
  }

  type ValidDate = d: Date | d.Valid() witness Date(1970, 1, 1)

  /** A parsed Python datetime; `offset` is the UTC offset in microseconds of an
      aware value and None for a naive one. */
  datatype DateTime = DateTime(date: Date, hour: int, minute: int, second: int, micro: int, offset: Option<int>) {
    predicate Valid() {
      && date.Valid()
      && 0 <= hour < 24 && 0 <= minute < 60 && 0 <= second < 60 && 0 <= micro < MicrosPerSecond
      && (offset.Some? ==> -MicrosPerDay < offset.value < MicrosPerDay)
    }
  }

  type ValidDateTime = t: DateTime | t.Valid()
    witness DateTime(Date(1970, 1, 1), 0, 0, 0, 0, Some(0))

  /** A reading of `datetime.now(timezone.utc)`: a valid, aware UTC datetime. */
  type UtcDateTime = t: ValidDateTime | t.offset == Some(0)
    witness DateTime(Date(1970, 1, 1), 0, 0, 0, 0, Some(0))

  /** Days from 1970-01-01 to the given civil date (negative before it). The
      shifted year starts in March so that the leap day is the last day of a
      year; 146097 is the number of days in a 400-year cycle. */
  function DaysFromCivil(y: int, m: int, d: int): int
    requires 1 <= m <= 12
  {
    var y' := if m <= 2 then y - 1 else y;
    var era := y' / 400;
    var yoe := y' - era * 400;
    var mp := if m > 2 then m - 3 else m + 9;
    var doy := (153 * mp + 2) / 5 + d - 1;
    var doe := yoe * 365 + yoe / 4 - yoe / 100 + doy;
    era * 146097 + doe - 719468
  }

  function DayNumber(d: Date): int
    requires 1 <= d.month <= 12
  {
    DaysFromCivil(d.year, d.month, d.day)
  }

  /** The day numbers of 0001-01-01 and 9999-12-31, the range of Python dates. */
  const MinDay: int := -719162
  const MaxDay: int := 2932896

  lemma DayNumberBounds(d: Date)
    requires d.Valid()
    ensures MinDay <= DayNumber(d) <= MaxDay
  {
    assert DaysFromCivil(1, 1, 1) == MinDay;
    assert DaysFromCivil(9999, 12, 31) == MaxDay;
    DaysFromCivilMonotone(1, 1, 1, d.year, d.month, d.day);
    DaysFromCivilMonotone(d.year, d.month, d.day, 9999, 12, 31);
  }

  /** Python's `weekday()` of a day number: Monday is 0; 1970-01-01 was a Thursday. */
  function Weekday(day: int): (w: int)
    ensures 0 <= w < 7
  {
    (day + 3) % 7
  }

  /** The first day of the month after (y, m). */
  function NextMonthStart(y: int, m: int): (r: Date)
    requires 1 <= m <= 12
    ensures 1 <= r.month <= 12 && r.day == 1
  {
    if m == 12 then Date(y + 1, 1, 1) else Date(y, m + 1, 1)
  }

  /** The day before the first of the next month is the last day of this month:
      day numbers run on without a gap across every month boundary, including
      February in leap and common years and the turn of a 400-year cycle. */
  lemma {:induction false} MonthEndIsDayBeforeNextMonth(y: int, m: int)
    requires 1 <= m <= 12
    ensures DayNumber(NextMonthStart(y, m)) == DaysFromCivil(y, m, DaysInMonth(y, m)) + 1
  {
    if m == 2 {
      FebruaryToMarch(y);
    }
  }

  /** Days from the epoch of the day-number formula to March 1 of shifted year `sy`. */
  function ShiftedYearStart(sy: int): int {
    var era := sy / 400;
    var yoe := sy - era * 400;
    era * 146097 + yoe * 365 + yoe / 4 - yoe / 100
  }

  lemma FebruaryToMarch(y: int)
    ensures DaysFromCivil(y, 3, 1) == DaysFromCivil(y, 2, DaysInMonth(y, 2)) + 1
  {
    assert DaysFromCivil(y, 3, 1) == ShiftedYearStart(y) - 719468;
    assert DaysFromCivil(y, 2, DaysInMonth(y, 2)) == ShiftedYearStart(y - 1) + 336 + DaysInMonth(y, 2) - 719468;
    ShiftedYearLength(y - 1);
  }

  /** A shifted year (March to February) has 366 days exactly when the
      February it ends with is a leap February. */
  lemma ShiftedYearLength(sy: int)
    ensures ShiftedYearStart(sy + 1) - ShiftedYearStart(sy) == if IsLeap(sy + 1) then 366 else 365
  {
    var era := sy / 400;
    var yoe := sy - era * 400;
    assert 0 <= yoe < 400;
    assert ShiftedYearStart(sy) == era * 146097 + yoe * 365 + yoe / 4 - yoe / 100;
    if yoe == 399 {
      Residue400(sy + 1, era + 1, 0);
      assert (sy + 1) / 400 == era + 1;
      assert ShiftedYearStart(sy + 1) == (era + 1) * 146097;
    } else {
      var t := yoe + 1;
      assert (sy + 1) / 400 == era;
      assert ShiftedYearStart(sy + 1) == era * 146097 + t * 365 + t / 4 - t / 100;
      CycleResidues(sy + 1, era, t);
      assert IsLeap(sy + 1) <==> t % 4 == 0 && t % 100 != 0;
      YearOfCycleLength(yoe);
    }
  }

  /** Within a 400-year cycle, shifted year `yoe + 1` starts 365 days after
      shifted year `yoe`, plus one when it ends with a leap February. */
  lemma YearOfCycleLength(yoe: int)
    requires 0 <= yoe < 399
    ensures var t := yoe + 1;
      (t * 365 + t / 4 - t / 100) - (yoe * 365 + yoe / 4 - yoe / 100)
        == if t % 4 == 0 && t % 100 != 0 then 366 else 365
  {
    var t := yoe + 1;
    assert t / 4 - yoe / 4 == (if t % 4 == 0 then 1 else 0);
    assert t / 100 - yoe / 100 == (if t % 100 == 0 then 1 else 0);
    if t % 100 == 0 {
      assert t % 4 == 0;
    }
  }

  lemma CycleResidues(y: int, era: int, t: int)
    requires y == era * 400 + t && 0 < t < 400
    ensures y % 4 == t % 4 && y % 100 == t % 100 && y % 400 != 0
  {
    Residue4(y, era * 100 + t / 4, t % 4);
    Residue100(y, era * 4 + t / 100, t % 100);
    Residue400(y, era, t);
  }

  lemma Residue4(y: int, q: int, r: int)
    requires y == q * 4 + r && 0 <= r < 4
    ensures y % 4 == r
  {
  }

  lemma Residue100(y: int, q: int, r: int)
    requires y == q * 100 + r && 0 <= r < 100
    ensures y % 100 == r
  {
  }

  lemma Residue400(y: int, q: int, r: int)
    requires y == q * 400 + r && 0 <= r < 400
    ensures y % 400 == r
  {
  }

  /** Within one month, day numbers follow the day of the month. */
  lemma DaysFromCivilWithinMonth(y: int, m: int, d: int, d': int)
    requires 1 <= m <= 12
    ensures DaysFromCivil(y, m, d') - DaysFromCivil(y, m, d) == d' - d
  {
  }

  /** Later dates have larger day numbers. */
  lemma {:induction false} DaysFromCivilMonotone(y: int, m: int, d: int, y': int, m': int, d': int)
    requires Date(y, m, d).Valid() && Date(y', m', d').Valid()
    requires y < y' || (y == y' && m < m') || (y == y' && m == m' && d <= d')
    ensures DaysFromCivil(y, m, d) <= DaysFromCivil(y', m', d')
    decreases y' - y, m' + 12 - m
  {
    if y == y' && m == m' {
    } else {
      var next := NextMonthStart(y, m);
      MonthEndIsDayBeforeNextMonth(y, m);
      assert DaysFromCivil(y, m, d) <= DaysFromCivil(y, m, DaysInMonth(y, m));
      if next.year <= 9999 {
        assert next.Valid();
        DaysFromCivilMonotone(next.year, next.month, 1, y', m', d');
      } else {
        assert false;
      }
    }
  }

  /** Local wall-clock microseconds since 1970-01-01T00:00. */
  function LocalMicros(t: DateTime): int
    requires 1 <= t.date.month <= 12
  {
    DayNumber(t.date) * MicrosPerDay
      + t.hour * 3600 * MicrosPerSecond + t.minute * 60 * MicrosPerSecond
      + t.second * MicrosPerSecond + t.micro
  }

  /** The instant a datetime denotes once stored: aware values are normalised
      to UTC, naive ones are taken as UTC (as the document store does). */
  function UtcMicros(t: DateTime): int
    requires 1 <= t.date.month <= 12
  {
    LocalMicros(t) - t.offset.GetOr(0)
  }

  /** Python's `b - a` in microseconds; subtracting a naive from an aware
      datetime raises TypeError, modelled as None. */
  function Elapsed(a: DateTime, b: DateTime): (r: Option<int>)
    requires 1 <= a.date.month <= 12 && 1 <= b.date.month <= 12
    ensures r.Some? <==> (a.offset.Some? <==> b.offset.Some?)
    ensures r.Some? ==> r.value == UtcMicros(b) - UtcMicros(a)
  {
    if a.offset.Some? != b.offset.Some? then None else Some(UtcMicros(b) - UtcMicros(a))
  }

  /** A span of whole days: from 00:00:00.000000 of `firstDay` to
      23:59:59.999999 of `lastDay`, in UTC. */
  datatype DayRange = DayRange(firstDay: int, lastDay: int) {
    function Start(): int {
      firstDay * MicrosPerDay
    }
    function End(): int {
      lastDay * MicrosPerDay + MicrosPerDay - 1
    }
  }

  /** The bounds sit at midnight and one microsecond before the next midnight,
      and a range whose days are ordered is non-empty. */
  lemma DayRangeBounds(r: DayRange)
    ensures r.Start() % MicrosPerDay == 0
    ensures r.End() % MicrosPerDay == MicrosPerDay - 1
    ensures r.firstDay <= r.lastDay ==> r.Start() < r.End()
  {
  }
}

=== FILE: categorization.dfy ===
/** server/routes/categorization.py: adding, editing and deleting categories.
    Each handler ends in a redirect or a re-rendered form; the model returns
    the notice the handler flashes and the categories collection afterwards. */
module Categorization {
  import opened Common
  import opened Text
  import opened Calendar
  import opened Entities

  /** The submitted form fields; None for a field that is absent. */
  datatype CategoryForm = CategoryForm(name: Option<string>, description: Option<string>, color: Option<string>)

  const DefaultColor: string := "#cccccc"

  /** `request.form.get(field, default).strip()`. */
  function FormName(f: CategoryForm): string { Strip(f.name.GetOr("")) }
  function FormDescription(f: CategoryForm): string { Strip(f.description.GetOr("")) }
  function FormColor(f: CategoryForm): string { Strip(f.color.GetOr(DefaultColor)) }

  /** The color falls back to the default only when the field is absent. */
  lemma FormColorDefault(f: CategoryForm)
    ensures f.color.None? ==> FormColor(f) == DefaultColor
    ensures f.color.Some? ==> FormColor(f) == Strip(f.color.value)
  {
    assert Strip(DefaultColor) == DefaultColor by {
      assert SkipSpaces(DefaultColor, 0) == 0;
      assert DropSpaces(DefaultColor, 0, |DefaultColor|) == |DefaultColor|;
      assert DefaultColor[0..|DefaultColor|] == DefaultColor;
    }
  }

  datatype Notice =
    | InvalidId
    | NotFound
    | NameRequired
    | NameExists
    | Added(id: nat)
    | ShowForm
    | Updated
    | DefaultProtected
    | HasRules(count: nat)
    | Deleted
    | DbError

  /** `add_category`. `created` and `updated` are the two separate clock
      readings for `created_at` and `updated_at`; `insertRaises` stands for an
      exception from `insert_one`. */
  function AddCategory(store: CategoryStore, form: CategoryForm, created: DateTime, updated: DateTime,
                       insertRaises: bool)
    : (r: (Notice, CategoryStore))
    requires store.Valid()
    ensures r.1.Valid()
    ensures r.0 == NameRequired <==> FormName(form) == ""
    ensures r.0 == NameExists <==> FormName(form) != "" && store.NameTaken(FormName(form))
    ensures r.0.Added? <==> FormName(form) != "" && !store.NameTaken(FormName(form)) && !insertRaises
    ensures !r.0.Added? ==> r.1 == store
    ensures r.0.Added? ==>
      && r.0.id !in store.categories
      && r.1.categories.Keys == store.categories.Keys + {r.0.id}
      && (forall id :: id in store.categories ==> r.1.categories[id] == store.categories[id])
      && r.1.categories[r.0.id] == Category(FormName(form), FormDescription(form), FormColor(form), false, false, created, updated)
    ensures UniqueNames(store) ==> UniqueNames(r.1)
  {
    var name := FormName(form);
    if name == "" then (NameRequired, store)
    else if store.NameTaken(name) then (NameExists, store)
    else if insertRaises then (DbError, store)
    else
      var c := Category(name, FormDescription(form), FormColor(form), false, false, created, updated);
      (Added(store.nextId), store.Insert(c))
  }

  /** Some category other than `id` is called `name`: the count with
      `{"name": name, "_id": {"$ne": id}}`. */
  predicate NameTakenByOther(store: CategoryStore, name: string, id: nat) {
    exists other :: other in store.categories && other != id && store.categories[other].name == name
  }

  /** `edit_category` once the id has been parsed: a GET, or a POST whose
      form is rejected, changes nothing (the form is shown again);
      `updateRaises` stands for an exception from `update_one`. */
  function EditById(store: CategoryStore, id: nat, isPost: bool, form: CategoryForm,
                    now: DateTime, updateRaises: bool): (r: (Notice, CategoryStore))
    requires store.Valid()
    ensures r.1.Valid()
    ensures r.0 == NotFound <==> id !in store.categories
    ensures r.0 != Updated ==> r.1 == store
    ensures r.0 == Updated <==>
      && id in store.categories && isPost && FormName(form) != ""
      && (FormName(form) == store.categories[id].name || !NameTakenByOther(store, FormName(form), id))
      && !updateRaises
    ensures r.0 == Updated ==>
      var before := store.categories[id];
      && r.1.categories.Keys == store.categories.Keys
      && (forall other :: other in store.categories && other != id ==> r.1.categories[other] == store.categories[other])
      && r.1.categories[id] == before.(name := FormName(form), description := FormDescription(form),
                                       color := FormColor(form), updatedAt := now)
    ensures UniqueNames(store) ==> UniqueNames(r.1)
  {
    if id !in store.categories then (NotFound, store)
    else if !isPost then (ShowForm, store)
    else
      var current := store.categories[id];
      var name := FormName(form);
      if name == "" then (NameRequired, store)
      else if name != current.name && NameTakenByOther(store, name, id) then (NameExists, store)
      else if updateRaises then (DbError, store)
      else
        var edited := current.(name := name, description := FormDescription(form), color := FormColor(form),
                               updatedAt := now);
        ReplaceKeepsNamesUnique(store, id, edited);
        (Updated, store.(categories := store.categories[id := edited]))
  }

  /** `edit_category`: an id that does not parse changes nothing. */
  function EditCategory(store: CategoryStore, idText: string, isPost: bool, form: CategoryForm,
                        now: DateTime, updateRaises: bool): (r: (Notice, CategoryStore))
    requires store.Valid()
    ensures r.1.Valid()
    ensures r.0 == InvalidId <==> ParseObjectId(idText).None?
    ensures r.0 == InvalidId ==> r.1 == store
    ensures ParseObjectId(idText).Some? ==>
      r == EditById(store, ParseObjectId(idText).value, isPost, form, now, updateRaises)
  {
    var oid := ParseObjectId(idText);
    if oid.None? then (InvalidId, store) else EditById(store, oid.value, isPost, form, now, updateRaises)
  }

  /** Replacing a category by one whose name is its old name, or a name no
      other category holds, keeps names unique. */
  lemma ReplaceKeepsNamesUnique(store: CategoryStore, id: nat, c: Category)
    requires id in store.categories
    requires c.name == store.categories[id].name || !NameTakenByOther(store, c.name, id)
    ensures UniqueNames(store) ==> UniqueNames(store.(categories := store.categories[id := c]))
  {
    if UniqueNames(store) {
      var after := store.(categories := store.categories[id := c]);
      forall a, b | a in after.categories && b in after.categories && a != b
        ensures after.categories[a].name != after.categories[b].name
      {
        if a == id {
          assert store.categories[b].name == after.categories[b].name;
        } else if b == id {
          assert store.categories[a].name == after.categories[a].name;
        }
      }
    }
  }

  /** Every rule refers to a stored category. */
  predicate RulesResolve(store: CategoryStore, rules: seq<RuleRef>) {
    forall i :: 0 <= i < |rules| ==> rules[i].categoryId in store.categories
  }

  /** `delete_category` once the id has been parsed. `countRaises` is an
      exception from the rule count and `deleteRaises` one from `delete_one`,
      which is only reached when no rule refers to the category. */
  function DeleteById(store: CategoryStore, id: nat, rules: seq<RuleRef>, countRaises: bool, deleteRaises: bool)
    : (r: (Notice, CategoryStore))
    requires store.Valid()
    ensures r.1.Valid()
    ensures r.0 != Deleted ==> r.1 == store
    ensures r.0 == NotFound <==> id !in store.categories
    ensures r.0 == DefaultProtected <==> id in store.categories && store.categories[id].isDefault
    ensures r.0.HasRules? <==>
      id in store.categories && !store.categories[id].isDefault && !countRaises && RuleCount(rules, id) > 0
    ensures r.0.HasRules? ==> r.0.count == RuleCount(rules, id)
    ensures r.0 == DbError <==>
      && id in store.categories && !store.categories[id].isDefault
      && (countRaises || (deleteRaises && RuleCount(rules, id) == 0))
    ensures r.0 == Deleted <==>
      && id in store.categories && !store.categories[id].isDefault && !countRaises && !deleteRaises
      && forall i :: 0 <= i < |rules| ==> rules[i].categoryId != id
    ensures r.0 == Deleted ==> r.1.categories == store.categories - {id}
  {
    if id !in store.categories then (NotFound, store)
    else if store.categories[id].isDefault then (DefaultProtected, store)
    else if countRaises then (DbError, store)
    else
      var count := RuleCount(rules, id);
      if count > 0 then (HasRules(count), store)
      else if deleteRaises then (DbError, store)
      else (Deleted, store.(categories := store.categories - {id}))
  }

  /** `delete_category`: an id that does not parse changes nothing. */
  function DeleteCategory(store: CategoryStore, idText: string, rules: seq<RuleRef>,
                          countRaises: bool, deleteRaises: bool)
    : (r: (Notice, CategoryStore))
    requires store.Valid()
    ensures r.1.Valid()
    ensures r.0 == InvalidId <==> ParseObjectId(idText).None?
    ensures r.0 == InvalidId ==> r.1 == store
    ensures ParseObjectId(idText).Some? ==> r == DeleteById(store, ParseObjectId(idText).value, rules, countRaises, deleteRaises)
  {
    var oid := ParseObjectId(idText);
    if oid.None? then (InvalidId, store) else DeleteById(store, oid.value, rules, countRaises, deleteRaises)
  }

  /** Deletion never removes a default category or one a rule refers to, so it
      keeps every rule resolvable and every seeded category in place. */
  lemma DeleteKeepsProtected(store: CategoryStore, idText: string, rules: seq<RuleRef>,
                             countRaises: bool, deleteRaises: bool)
    requires store.Valid()
    ensures var after := DeleteCategory(store, idText, rules, countRaises, deleteRaises).1;
      && (forall id :: id in store.categories && store.categories[id].isDefault ==> id in after.categories)
      && (RulesResolve(store, rules) ==> RulesResolve(after, rules))
  {
  }
}

=== FILE: common.dfy ===
/** The optional-value type every module shares. */
module Common {

  datatype Option<+T> = None | Some(value: T) {
    function GetOr(default: T): T {
      match this
      case Some(v) => v
      case None => default
    }
  }
}

=== FILE: dashboard.dfy ===
/** server/routes/dashboard.py: the two helpers the dashboard view relies on,
    the period window and the H:MM:SS rendering of a number of seconds. */
module Dashboard {
  import opened Common
  import opened Json
  import opened Text
  import opened Calendar

  // ---------------------------------------------------------------------------
  // format_seconds

  /** `f"{h:02d}:{m:02d}:{s:02d}"` with `h, rest = divmod(n, 3600)` and
      `m, s = divmod(rest, 60)`; the hours field grows past two digits. */
  function Clock(n: nat): string {
    var rest := n % 3600;
    ZeroPad(n / 3600, 2) + ":" + ZeroPad(rest / 60, 2) + ":" + ZeroPad(rest % 60, 2)
  }

  /** Reads an "H…H:MM:SS" text back as a number of seconds: at least two hour
      digits, then minutes and seconds of two digits each, both below 60. */
  function ReadClock(s: string): (r: Option<nat>)
    ensures r.Some? ==> |s| >= 8 && s[|s| - 6] == ':' && s[|s| - 3] == ':'
  {
    if |s| < 8 || s[|s| - 6] != ':' || s[|s| - 3] != ':' then None
    else ClockFields(s[..|s| - 6], s[|s| - 5..|s| - 3], s[|s| - 2..])
  }

  /** The value of hour, minute and second fields, when all are digits and the
      last two are below 60. */
  function ClockFields(hours: string, minutes: string, seconds: string): Option<nat> {
    if AllDigits(hours) && AllDigits(minutes) && AllDigits(seconds)
       && ParseDigits(minutes) < 60 && ParseDigits(seconds) < 60
    then Some(ParseDigits(hours) * 3600 + ParseDigits(minutes) * 60 + ParseDigits(seconds))
    else None
  }

  /** Where the fields of an "H…H:MM:SS" text sit. */
  lemma ClockLayout(hs: string, ms: string, ss: string)
    requires |hs| >= 2 && |ms| == 2 && |ss| == 2
    ensures var s := hs + ":" + ms + ":" + ss;
      && |s| == |hs| + 6 && |s| >= 8
      && s[|s| - 6] == ':' && s[|s| - 3] == ':'
      && s[..|s| - 6] == hs && s[|s| - 5..|s| - 3] == ms && s[|s| - 2..] == ss
  {
    var s := hs + ":" + ms + ":" + ss;
    Concat5(hs, ":", ms, ":", ss);
    assert s[|hs|..|hs| + 1] == ":";
    assert s[|hs| + 3..|hs| + 4] == ":";
  }

  /** Digit fields at those places read back field by field. */
  lemma ReadClockFields(s: string, hs: string, ms: string, ss: string)
    requires |s| >= 8 && s[|s| - 6] == ':' && s[|s| - 3] == ':'
    requires s[..|s| - 6] == hs && s[|s| - 5..|s| - 3] == ms && s[|s| - 2..] == ss
    requires AllDigits(hs) && AllDigits(ms) && AllDigits(ss)
    requires ParseDigits(ms) < 60 && ParseDigits(ss) < 60
    ensures ReadClock(s) == Some(ParseDigits(hs) * 3600 + ParseDigits(ms) * 60 + ParseDigits(ss))
  {
  }

  /** The rendering reads back as the number it came from: h·3600 + m·60 + s = n
      with minutes and seconds below 60, so distinct totals render differently;
      below 100 hours the text is exactly eight characters. */
  lemma {:induction false} ClockRoundTrip(n: nat)
    ensures ReadClock(Clock(n)) == Some(n)
    ensures |Clock(n)| >= 8
    ensures n < 100 * 3600 ==> |Clock(n)| == 8
  {
    var h, rest := n / 3600, n % 3600;
    var m, sec := rest / 60, rest % 60;
    assert n == h * 3600 + rest && rest == m * 60 + sec;
    ParseZeroPad(h, 2);
    PaddedField(m, 2);
    PaddedField(sec, 2);
    ClockLayout(ZeroPad(h, 2), ZeroPad(m, 2), ZeroPad(sec, 2));
    ReadClockFields(Clock(n), ZeroPad(h, 2), ZeroPad(m, 2), ZeroPad(sec, 2));
    if n < 100 * 3600 {
      ZeroPadWidth(h, 2);
    }
  }

  /** `format_seconds`. A non-number or a negative value renders as
      "00:00:00"; otherwise the whole seconds `int(total)` are rendered, and
      `int` of NaN or infinity raises (None). */
  function FormatSeconds(v: Value): (r: Option<string>)
    ensures !IsNumber(v) || IsNegative(v) ==> r == Some("00:00:00")
    ensures IsNumber(v) && !IsNegative(v) ==> (r.None? <==> v.Float? && !v.f.Finite?)
    ensures IsNumber(v) && !IsNegative(v) && r.Some? ==> ReadClock(r.value) == TruncateNonNegative(v)
    ensures v.Int? && v.i >= 0 ==> r.Some? && ReadClock(r.value) == Some(v.i)
  {
    if !IsNumber(v) || IsNegative(v) then Some("00:00:00")
    else
      match TruncateNonNegative(v)
      case None => None
      case Some(n) =>
        ClockRoundTrip(n);
        Some(Clock(n))
  }

  // ---------------------------------------------------------------------------
  // get_date_range

  /** The week branch: Monday of the current week to the Sunday after it.
      Day 1 of year 1 was a Monday, so the Monday never falls before it. */
  function WeekRange(today: int): (r: Option<DayRange>)
    requires MinDay <= today <= MaxDay
    ensures r.None? <==> today - Weekday(today) + 6 > MaxDay
    ensures r.Some? ==>
      && Weekday(r.value.firstDay) == 0 && r.value.lastDay == r.value.firstDay + 6
      && r.value.firstDay <= today <= r.value.lastDay
      && MinDay <= r.value.firstDay && r.value.lastDay <= MaxDay
    ensures r.None? ==> today > MaxDay - 7
  {
    var first := today - Weekday(today);
    assert Weekday(MinDay) == 0;
    if first + 6 > MaxDay then None else Some(DayRange(first, first + 6))
  }

  /** The month branch: day 1 to the last day of the month; adding a month to
      December 9999 raises. */
  function MonthRange(date: ValidDate): (r: Option<DayRange>)
    ensures r.None? <==> date.year == 9999 && date.month == 12
    ensures r.Some? ==>
      && r.value == DayRange(DaysFromCivil(date.year, date.month, 1),
                             DaysFromCivil(date.year, date.month, DaysInMonth(date.year, date.month)))
      && r.value.firstDay <= DayNumber(date) <= r.value.lastDay
      && MinDay <= r.value.firstDay && r.value.lastDay <= MaxDay
    ensures r.None? ==> DayNumber(date) > MaxDay - 31
  {
    var y, m := date.year, date.month;
    MonthSpan(date);
    if y == 9999 && m == 12 then None
    else
      MonthEndIsDayBeforeNextMonth(y, m);
      Some(DayRange(DaysFromCivil(y, m, 1), DayNumber(NextMonthStart(y, m)) - 1))
  }

  /** A date lies between the first and the last day of its month, and both
      are representable; December 9999 is the month ending at the last day. */
  lemma MonthSpan(date: ValidDate)
    ensures var y, m := date.year, date.month;
      && DaysFromCivil(y, m, 1) <= DayNumber(date) <= DaysFromCivil(y, m, DaysInMonth(y, m))
      && MinDay <= DaysFromCivil(y, m, 1) && DaysFromCivil(y, m, DaysInMonth(y, m)) <= MaxDay
      && (y == 9999 && m == 12 ==> DayNumber(date) > MaxDay - 31)
  {
    var y, m, d := date.year, date.month, date.day;
    DaysFromCivilWithinMonth(y, m, 1, d);
    DaysFromCivilWithinMonth(y, m, d, DaysInMonth(y, m));
    DayNumberBounds(Date(y, m, 1));
    DayNumberBounds(Date(y, m, DaysInMonth(y, m)));
    if y == 9999 && m == 12 {
      assert DaysFromCivil(9999, 12, 31) == MaxDay;
    }
  }

  /** `get_date_range(period)` for the UTC reading `now`: the days from the
      start of the week, the month or the day up to its end, from 00:00:00 of
      the first day to 23:59:59.999999 of the last. None when the end date
      falls after 9999-12-31 (`relativedelta` raises OverflowError or
      ValueError); that can only happen in the last month of year 9999. */
  function DashboardRange(period: string, now: UtcDateTime): (r: Option<DayRange>)
    ensures r.Some? ==> r.value.firstDay <= DayNumber(now.date) <= r.value.lastDay
    ensures r.Some? ==> MinDay <= r.value.firstDay && r.value.lastDay <= MaxDay
    ensures r.None? ==> DayNumber(now.date) > MaxDay - 31
    ensures period == "week" ==>
      && (r.None? <==> DayNumber(now.date) - Weekday(DayNumber(now.date)) + 6 > MaxDay)
      && (r.Some? ==> Weekday(r.value.firstDay) == 0 && r.value.lastDay == r.value.firstDay + 6)
    ensures period == "month" ==>
      var y, m := now.date.year, now.date.month;
      && (r.None? <==> y == 9999 && m == 12)
      && (r.Some? ==> r.value == DayRange(DaysFromCivil(y, m, 1), DaysFromCivil(y, m, DaysInMonth(y, m))))
    ensures period != "week" && period != "month" ==>
      && (r.None? <==> DayNumber(now.date) == MaxDay)
      && (r.Some? ==> r.value == DayRange(DayNumber(now.date), DayNumber(now.date)))
  {
    var today := DayNumber(now.date);
    DayNumberBounds(now.date);
    if period == "week" then WeekRange(today)
    else if period == "month" then MonthRange(now.date)
    else if today == MaxDay then None
    else Some(DayRange(today, today))
  }

  /** Whatever the period, the window holds the instant it was computed at. */
  lemma {:induction false} DashboardRangeHoldsNow(period: string, now: UtcDateTime)
    ensures DashboardRange(period, now).Some? ==>
      var r := DashboardRange(period, now).value;
      r.Start() <= UtcMicros(now) <= r.End()
  {
    if DashboardRange(period, now).None? {
      return;
    }
    var r := DashboardRange(period, now).value;
    var today := DayNumber(now.date);
    var clock := now.hour * 3600 * MicrosPerSecond + now.minute * 60 * MicrosPerSecond
      + now.second * MicrosPerSecond + now.micro;
    assert 0 <= clock < MicrosPerDay;
    assert UtcMicros(now) == today * MicrosPerDay + clock;
    assert r.firstDay * MicrosPerDay <= today * MicrosPerDay;
    assert today * MicrosPerDay <= r.lastDay * MicrosPerDay;
  }
}

=== FILE: db.dfy ===
/** server/models/db.py: employee creation-or-touch, the idempotent seeding of
    the default categories, and the create-if-missing collection and index
    set-up of `initialize_db`. A storage exception is an injected fault. */
module Db {
  import opened Common
  import opened Json
  import opened Text
  import opened Calendar
  import opened Entities

  // ---------------------------------------------------------------------------
  // Employees

  /** `f"User_{employee_id[:8]}"`. */
  function PlaceholderName(employeeId: string): (r: string)
    ensures |r| == 5 + (if |employeeId| < 8 then |employeeId| else 8)
    ensures r[..5] == "User_" && r[5..] == employeeId[..|r| - 5]
  {
    "User_" + (if |employeeId| < 8 then employeeId else employeeId[..8])
  }

  /** The display name of a newly created employee. */
  function InitialDisplayName(employeeId: string, initialName: Option<Value>): Value {
    if initialName.Some? && Truthy(initialName.value) && initialName.value != Str(employeeId)
    then initialName.value
    else Str(PlaceholderName(employeeId))
  }

  /** The hint is used exactly when it is present, truthy and not the id itself;
      otherwise the name is "User_" followed by the first eight characters of the id. */
  lemma DisplayNameRule(employeeId: string, initialName: Option<Value>)
    ensures var n := InitialDisplayName(employeeId, initialName);
      var useHint := initialName.Some? && Truthy(initialName.value) && initialName.value != Str(employeeId);
      && (useHint ==> n == initialName.value)
      && (!useHint ==> n.Str? && StartsWith(n.s, "User_") && |n.s| <= 13 && employeeId[..|n.s| - 5] == n.s[5..])
  {
  }

  datatype Touch = Touch(employees: Employees, result: Option<string>)

  /** `create_employee`: insert a pending_rename employee for an unknown id, or
      set last_seen and updated_at of the known one. Any storage exception
      leaves the collection as it was and yields None. */
  function CreateEmployee(employees: Employees, employeeId: string, initialName: Option<Value>,
                          now: DateTime, storageFails: bool): (t: Touch)
    ensures storageFails ==> t == Touch(employees, None)
    ensures !storageFails ==> t.result == Some(employeeId)
    ensures !storageFails ==> t.employees.Keys == employees.Keys + {employeeId}
    ensures forall id :: id in employees && id != employeeId ==> t.employees[id] == employees[id]
    ensures !storageFails && employeeId !in employees ==>
      t.employees[employeeId] == Employee(employeeId, InitialDisplayName(employeeId, initialName),
                                          PendingRename, now, now, now, now)
    ensures !storageFails && employeeId in employees ==>
      var old_ := employees[employeeId];
      var new_ := t.employees[employeeId];
      && new_.lastSeen == now && new_.updatedAt == now
      && new_.employeeId == old_.employeeId && new_.displayName == old_.displayName
      && new_.status == old_.status && new_.firstSeen == old_.firstSeen
      && new_.createdAt == old_.createdAt
  {
    if storageFails then Touch(employees, None)
    else if employeeId !in employees then
      var e := Employee(employeeId, InitialDisplayName(employeeId, initialName),
                        PendingRename, now, now, now, now);
      Touch(employees[employeeId := e], Some(employeeId))
    else
      Touch(employees[employeeId := employees[employeeId].(lastSeen := now, updatedAt := now)],
            Some(employeeId))
  }

  /** Creating keeps every document filed under its own id. */
  lemma CreateEmployeeKeepsKeys(employees: Employees, employeeId: string, initialName: Option<Value>,
                                now: DateTime, storageFails: bool)
    requires KeysMatchIds(employees)
    ensures KeysMatchIds(CreateEmployee(employees, employeeId, initialName, now, storageFails).employees)
  {
  }

  /** Two check-ins from a new id create exactly one employee, still pending
      rename, first seen at the first call and last seen at the second. */
  lemma {:induction false} TouchTwice(employees: Employees, employeeId: string, hint: Option<Value>,
                                      t1: DateTime, t2: DateTime)
    requires employeeId !in employees
    ensures var once := CreateEmployee(employees, employeeId, hint, t1, false).employees;
      var twice := CreateEmployee(once, employeeId, hint, t2, false).employees;
      && twice.Keys == employees.Keys + {employeeId}
      && |twice| == |employees| + 1
      && twice[employeeId].status == PendingRename
      && twice[employeeId].firstSeen == t1
      && twice[employeeId].lastSeen == t2
  {
    var once := CreateEmployee(employees, employeeId, hint, t1, false).employees;
    var twice := CreateEmployee(once, employeeId, hint, t2, false).employees;
    assert twice.Keys == employees.Keys + {employeeId};
    assert |employees.Keys + {employeeId}| == |employees.Keys| + 1;
  }

  // ---------------------------------------------------------------------------
  // Default categories

  datatype Seed = Seed(name: string, description: string, color: string, isFallback: bool)

  const DefaultCategories: seq<Seed> := [
    Seed("Productive", "Work-related tasks and applications.", "#2ecc71", false),
    Seed("Unproductive", "Non-work related activities, distractions.", "#e74c3c", false),
    Seed("Neutral/Undefined", "General system usage or uncategorized activities.", "#95a5a6", true)
  ]

  /** Successive readings of `datetime.now()`. */
  type Clock = nat -> DateTime

  /** The document inserted for seed `k`: `created_at` and `updated_at` are two
      separate clock readings, numbered 2k and 2k + 1. */
  function SeedDocument(k: nat, clock: Clock): Category
    requires k < |DefaultCategories|
  {
    var s := DefaultCategories[k];
    Category(s.name, s.description, s.color, true, s.isFallback, clock(2 * k), clock(2 * k + 1))
  }

  /** The seeds have distinct names and exactly one of them is the fallback. */
  lemma SeedSet()
    ensures |DefaultCategories| == 3
    ensures forall i, j :: 0 <= i < j < |DefaultCategories| ==> DefaultCategories[i].name != DefaultCategories[j].name
    ensures forall i :: 0 <= i < |DefaultCategories| ==>
      (DefaultCategories[i].isFallback <==> DefaultCategories[i].name == "Neutral/Undefined")
  {
  }

  /** The loop of `create_default_categories` from seed `i` on. The whole loop
      sits in one try block, so the first raising operation (seed `failAt`)
      ends it. */
  function SeedFrom(store: CategoryStore, i: nat, clock: Clock, failAt: nat): (s: CategoryStore)
    requires store.Valid()
    ensures s.Valid()
    ensures store.nextId <= s.nextId
    ensures forall id :: id in store.categories ==> id in s.categories && s.categories[id] == store.categories[id]
    ensures forall id :: id in s.categories && id !in store.categories ==>
      exists k :: i <= k < |DefaultCategories| && s.categories[id] == SeedDocument(k, clock)
    ensures failAt >= |DefaultCategories| ==>
      forall k :: i <= k < |DefaultCategories| ==> s.NameTaken(DefaultCategories[k].name)
    ensures UniqueNames(store) ==> UniqueNames(s)
    decreases |DefaultCategories| - i
  {
    if i >= |DefaultCategories| || i >= failAt then store
    else
      var seed := DefaultCategories[i];
      var next := if store.NameTaken(seed.name) then store else store.Insert(SeedDocument(i, clock));
      assert next.NameTaken(seed.name) by {
        if !store.NameTaken(seed.name) {
          assert next.categories[store.nextId].name == seed.name;
        }
      }
      assert UniqueNames(store) ==> UniqueNames(next);
      SeedFrom(next, i + 1, clock, failAt)
  }

  /** `create_default_categories`. */
  function SeedDefaults(store: CategoryStore, clock: Clock, failAt: nat): (s: CategoryStore)
    requires store.Valid()
    ensures s.Valid()
  {
    SeedFrom(store, 0, clock, failAt)
  }

  /** Seeding never removes or alters an existing category, keeps names unique,
      and when nothing raises every default name is present afterwards. */
  lemma SeedingProperties(store: CategoryStore, clock: Clock, failAt: nat)
    requires store.Valid()
    ensures var s := SeedDefaults(store, clock, failAt);
      && (forall id :: id in store.categories ==> id in s.categories && s.categories[id] == store.categories[id])
      && (UniqueNames(store) ==> UniqueNames(s))
      && (failAt >= 3 ==> forall k :: 0 <= k < 3 ==> s.NameTaken(DefaultCategories[k].name))
  {
  }

  /** When every default name is already present, a run inserts nothing. */
  lemma {:induction false} SeedFromNothingToDo(store: CategoryStore, i: nat, clock: Clock, failAt: nat)
    requires store.Valid()
    requires forall k :: i <= k < |DefaultCategories| ==> store.NameTaken(DefaultCategories[k].name)
    ensures SeedFrom(store, i, clock, failAt) == store
    decreases |DefaultCategories| - i
  {
    if i < |DefaultCategories| && i < failAt {
      SeedFromNothingToDo(store, i + 1, clock, failAt);
    }
  }

  /** Seeding is idempotent: after a run in which nothing raised, a second run
      (at any time, with any faults) changes nothing. */
  lemma SeedingIdempotent(store: CategoryStore, clock: Clock, laterClock: Clock, failAt: nat)
    requires store.Valid()
    ensures var once := SeedDefaults(store, clock, 3);
      SeedDefaults(once, laterClock, failAt) == once
  {
    var once := SeedDefaults(store, clock, 3);
    SeedFromNothingToDo(once, 0, laterClock, failAt);
  }

  // ---------------------------------------------------------------------------
  // Collections and indexes

  datatype IndexSpec = IndexSpec(field: string, order: int)

  /** The `collections_with_indexes` table of `initialize_db`, in its order. */
  const Schema: seq<(string, seq<IndexSpec>)> := [
    ("users", [IndexSpec("username", 1), IndexSpec("email", 1)]),
    ("employees", [IndexSpec("employee_id", 1), IndexSpec("last_seen", -1)]),
    ("activity_logs", [IndexSpec("employee_id", 1), IndexSpec("timestamp", -1), IndexSpec("category_id", 1),
                       IndexSpec("log_type", 1), IndexSpec("process_name", 1)]),
    ("categories", [IndexSpec("name", 1)]),
    ("categorization_rules", [IndexSpec("category_id", 1), IndexSpec("type", 1), IndexSpec("pattern", 1)])
  ]

  /** `f"{coll_name}_{idx_field}_{str(idx_order_or_type)}_idx"`. */
  function IndexName(coll: string, spec: IndexSpec): string {
    coll + "_" + spec.field + "_" + IntToString(spec.order) + "_idx"
  }

  lemma FirstOfDigits(s: string)
    ensures |s| >= 1 && AllDigits(s) ==> IsDigit(s[0])
  {
  }

  /** `str(i)` never contains an underscore and determines `i`. */
  lemma IntToStringInjective(i: int, j: int)
    ensures forall k :: 0 <= k < |IntToString(i)| ==> IntToString(i)[k] != '_'
    ensures IntToString(i) == IntToString(j) ==> i == j
  {
    var s := IntToString(i);
    if i < 0 {
      assert forall k :: 1 <= k < |s| ==> s[1..][k - 1] == s[k];
    }
    if s == IntToString(j) && (i >= 0 <==> j < 0) {
      FirstOfDigits(if i >= 0 then s else IntToString(j));
      assert false;
    }
  }

  /** The characters of `f + "_" + n` by position. */
  lemma JoinedAt(f: string, n: string, k: int)
    ensures k == |f| ==> (f + "_" + n)[k] == '_'
    ensures |f| < k < |f| + 1 + |n| ==> (f + "_" + n)[k] == n[k - |f| - 1]
  {
  }

  /** Splitting at the last underscore: a tail without underscores is
      recovered, and so is the head. */
  lemma SplitAtLastUnderscore(f1: string, n1: string, f2: string, n2: string)
    requires forall k :: 0 <= k < |n1| ==> n1[k] != '_'
    requires forall k :: 0 <= k < |n2| ==> n2[k] != '_'
    requires f1 + "_" + n1 == f2 + "_" + n2
    ensures f1 == f2 && n1 == n2
  {
    var s1, s2 := f1 + "_" + n1, f2 + "_" + n2;
    if |f1| < |f2| {
      JoinedAt(f1, n1, |f2|);
      JoinedAt(f2, n2, |f2|);
      assert false;
    } else if |f2| < |f1| {
      JoinedAt(f1, n1, |f1|);
      JoinedAt(f2, n2, |f1|);
      assert false;
    } else {
      assert f1 == s1[..|f1|] && f2 == s2[..|f2|];
      assert n1 == s1[|f1| + 1..] && n2 == s2[|f2| + 1..];
    }
  }

  /** Within one collection the generated name determines the field and the
      order: two different specifications never ask `create_index` for the
      same name, whatever characters the field holds. */
  lemma IndexNameInjective(coll: string, a: IndexSpec, b: IndexSpec)
    ensures IndexName(coll, a) == IndexName(coll, b) <==> a == b
  {
    if IndexName(coll, a) == IndexName(coll, b) {
      IndexNameMiddle(coll, a);
      IndexNameMiddle(coll, b);
      IntToStringInjective(a.order, b.order);
      IntToStringInjective(b.order, a.order);
      SplitAtLastUnderscore(a.field, IntToString(a.order), b.field, IntToString(b.order));
    }
  }

  /** Between the collection prefix and the "_idx" suffix sits the field and
      the order. */
  lemma IndexNameMiddle(coll: string, spec: IndexSpec)
    ensures var s := IndexName(coll, spec);
      |coll| + 1 <= |s| - 4 && s[|coll| + 1..|s| - 4] == spec.field + "_" + IntToString(spec.order)
  {
    var mid := spec.field + "_" + IntToString(spec.order);
    assert IndexName(coll, spec) == (coll + "_") + mid + "_idx";
  }

  datatype SchemaState = SchemaState(collections: set<string>, indexes: map<string, set<string>>) {
    function IndexesOf(coll: string): set<string> {
      if coll in indexes then indexes[coll] else {}
    }
  }

  /** Which storage calls raise: creating a collection, creating an index of a
      given name, and the operation of the seeding loop that fails first. */
  datatype InitFaults = InitFaults(collectionFails: set<string>, indexFails: set<string>, seedFailAt: nat)

  function NoFaults(): InitFaults {
    InitFaults({}, {}, 3)
  }

  datatype Setup = Setup(schema: SchemaState, categories: CategoryStore)

  /** The index names a list of specifications generates for a collection. */
  function IndexNames(coll: string, specs: seq<IndexSpec>): (r: set<string>)
    ensures forall k :: 0 <= k < |specs| ==> IndexName(coll, specs[k]) in r
  {
    if specs == [] then {}
    else
      var rest := IndexNames(coll, specs[1..]);
      assert forall k :: 1 <= k < |specs| ==> specs[1..][k - 1] == specs[k];
      {IndexName(coll, specs[0])} + rest
  }

  /** Every name in the set comes from one of the specifications. */
  lemma {:induction false} IndexNamesListed(coll: string, specs: seq<IndexSpec>, n: string)
    requires n in IndexNames(coll, specs)
    ensures exists k :: 0 <= k < |specs| && n == IndexName(coll, specs[k])
    decreases |specs|
  {
    if n != IndexName(coll, specs[0]) {
      IndexNamesListed(coll, specs[1..], n);
      var k :| 0 <= k < |specs[1..]| && n == IndexName(coll, specs[1..][k]);
      assert specs[1..][k] == specs[k + 1];
    }
  }

  /** The index loop for one collection: `existing` is the list taken once
      before the loop; the first `create_index` that raises ends the loop. */
  function EnsureIndexes(st: SchemaState, coll: string, specs: seq<IndexSpec>, existing: set<string>,
                         faults: InitFaults): (r: SchemaState)
    ensures r.collections == st.collections
    ensures forall c :: c != coll ==> r.IndexesOf(c) == st.IndexesOf(c)
    ensures st.IndexesOf(coll) <= r.IndexesOf(coll) <= st.IndexesOf(coll) + IndexNames(coll, specs)
    ensures faults.indexFails == {} ==> IndexNames(coll, specs) <= r.IndexesOf(coll) + existing
    ensures IndexNames(coll, specs) <= existing ==> r == st
    decreases |specs|
  {
    if specs == [] then st
    else
      var name := IndexName(coll, specs[0]);
      assert IndexNames(coll, specs) == {name} + IndexNames(coll, specs[1..]);
      if name in existing then EnsureIndexes(st, coll, specs[1..], existing, faults)
      else if name in faults.indexFails then st
      else
        var st' := st.(indexes := st.indexes[coll := st.IndexesOf(coll) + {name}]);
        assert st'.IndexesOf(coll) == st.IndexesOf(coll) + {name};
        EnsureIndexes(st', coll, specs[1..], existing, faults)
  }

  /** One entry of the schema table: create the collection when it is missing
      (seeding the categories when it is `categories`), then its indexes. A
      failed collection creation skips that collection's indexes. */
  function EnsureCollection(s: Setup, coll: string, specs: seq<IndexSpec>, faults: InitFaults,
                            clock: Clock): (r: Setup)
    requires s.categories.Valid()
    ensures r.categories.Valid()
    ensures s.schema.collections <= r.schema.collections <= s.schema.collections + {coll}
    ensures coll !in s.schema.collections && coll !in faults.collectionFails ==>
      && coll in r.schema.collections
      && r.categories == (if coll == "categories" then SeedDefaults(s.categories, clock, faults.seedFailAt)
                          else s.categories)
    ensures coll in s.schema.collections || coll in faults.collectionFails ==> r.categories == s.categories
  {
    if coll !in s.schema.collections && coll in faults.collectionFails then s
    else
      var created := coll !in s.schema.collections;
      var schema := s.schema.(collections := s.schema.collections + {coll});
      var categories := if created && coll == "categories" then SeedDefaults(s.categories, clock, faults.seedFailAt)
                        else s.categories;
      Setup(EnsureIndexes(schema, coll, specs, schema.IndexesOf(coll), faults), categories)
  }

  function InitializeFrom(s: Setup, i: nat, faults: InitFaults, clock: Clock): (r: Setup)
    requires s.categories.Valid()
    ensures r.categories.Valid()
    decreases |Schema| - i
  {
    if i >= |Schema| then s
    else InitializeFrom(EnsureCollection(s, Schema[i].0, Schema[i].1, faults, clock), i + 1, faults, clock)
  }

  /** `initialize_db`. */
  function InitializeDb(s: Setup, faults: InitFaults, clock: Clock): (r: Setup)
    requires s.categories.Valid()
    ensures r.categories.Valid()
  {
    InitializeFrom(s, 0, faults, clock)
  }

  /** Entry `j` of the schema table is in place: its collection and all its indexes. */
  predicate EntryComplete(st: SchemaState, j: nat)
    requires j < |Schema|
  {
    && Schema[j].0 in st.collections
    && IndexNames(Schema[j].0, Schema[j].1) <= st.IndexesOf(Schema[j].0)
  }

  /** Everything the schema table asks for is in place. */
  predicate SchemaComplete(st: SchemaState) {
    forall j :: 0 <= j < |Schema| ==> EntryComplete(st, j)
  }

  /** Initialisation never drops a collection or an index; it only adds names
      the schema table generates. */
  lemma {:induction false} InitializeFromMonotone(s: Setup, i: nat, faults: InitFaults, clock: Clock)
    requires s.categories.Valid()
    ensures var r := InitializeFrom(s, i, faults, clock);
      && s.schema.collections <= r.schema.collections
      && forall c :: s.schema.IndexesOf(c) <= r.schema.IndexesOf(c)
    decreases |Schema| - i
  {
    if i < |Schema| {
      var s' := EnsureCollection(s, Schema[i].0, Schema[i].1, faults, clock);
      InitializeFromMonotone(s', i + 1, faults, clock);
    }
  }

  /** A later run keeps an entry that is already in place. */
  lemma EntryCompleteKept(s: Setup, i: nat, faults: InitFaults, clock: Clock, j: nat)
    requires s.categories.Valid() && j < |Schema| && EntryComplete(s.schema, j)
    ensures EntryComplete(InitializeFrom(s, i, faults, clock).schema, j)
  {
    InitializeFromMonotone(s, i, faults, clock);
  }

  /** Without faults, one step puts its own entry in place. */
  lemma EnsureCollectionCompletes(s: Setup, i: nat, clock: Clock)
    requires s.categories.Valid() && i < |Schema|
    ensures EntryComplete(EnsureCollection(s, Schema[i].0, Schema[i].1, NoFaults(), clock).schema, i)
  {
  }

  /** With no faults, the entries from `i` on are all in place afterwards. */
  lemma {:induction false} InitializeFromCompletes(s: Setup, i: nat, clock: Clock)
    requires s.categories.Valid()
    ensures forall j :: i <= j < |Schema| ==> EntryComplete(InitializeFrom(s, i, NoFaults(), clock).schema, j)
    decreases |Schema| - i
  {
    if i < |Schema| {
      var s' := EnsureCollection(s, Schema[i].0, Schema[i].1, NoFaults(), clock);
      var r := InitializeFrom(s', i + 1, NoFaults(), clock);
      assert InitializeFrom(s, i, NoFaults(), clock) == r;
      InitializeFromCompletes(s', i + 1, clock);
      EnsureCollectionCompletes(s, i, clock);
      EntryCompleteKept(s', i + 1, NoFaults(), clock, i);
      forall j | i <= j < |Schema|
        ensures EntryComplete(r.schema, j)
      {
        if j == i {
          assert EntryComplete(r.schema, i);
        }
      }
    }
  }

  /** A fault-free run leaves the schema complete. */
  lemma InitializeCompletes(s: Setup, clock: Clock)
    requires s.categories.Valid()
    ensures SchemaComplete(InitializeDb(s, NoFaults(), clock).schema)
  {
    InitializeFromCompletes(s, 0, clock);
  }

  /** Initialisation never removes or alters a stored category. */
  lemma {:induction false} InitializeFromKeepsCategories(s: Setup, i: nat, faults: InitFaults, clock: Clock)
    requires s.categories.Valid()
    ensures forall id :: id in s.categories.categories ==>
      var r := InitializeFrom(s, i, faults, clock).categories.categories;
      id in r && r[id] == s.categories.categories[id]
    decreases |Schema| - i
  {
    if i < |Schema| {
      var s' := EnsureCollection(s, Schema[i].0, Schema[i].1, faults, clock);
      SeedingProperties(s.categories, clock, faults.seedFailAt);
      InitializeFromKeepsCategories(s', i + 1, faults, clock);
    }
  }

  /** A default name present before a run is present after it. */
  lemma NameTakenKept(s: Setup, i: nat, faults: InitFaults, clock: Clock, name: string)
    requires s.categories.Valid() && s.categories.NameTaken(name)
    ensures InitializeFrom(s, i, faults, clock).categories.NameTaken(name)
  {
    var id :| id in s.categories.categories && s.categories.categories[id].name == name;
    InitializeFromKeepsCategories(s, i, faults, clock);
    assert InitializeFrom(s, i, faults, clock).categories.categories[id].name == name;
  }

  /** The table's entries before index 3 are not "categories"; entry 3 is. */
  lemma CategoriesEntry(i: nat)
    requires i <= 3
    ensures Schema[i].0 == "categories" <==> i == 3
  {
  }

  /** Creating the "categories" collection fault-free seeds every default. */
  lemma CreatingCategoriesSeeds(s: Setup, specs: seq<IndexSpec>, clock: Clock)
    requires s.categories.Valid() && "categories" !in s.schema.collections
    ensures forall k :: 0 <= k < |DefaultCategories| ==>
      EnsureCollection(s, "categories", specs, NoFaults(), clock).categories.NameTaken(DefaultCategories[k].name)
  {
    SeedingProperties(s.categories, clock, 3);
  }

  /** The run from the "categories" entry (index 3 of the table) on a schema
      without that collection creates it, seeds every default, and keeps them. */
  lemma SeedsAtCategoriesEntry(s: Setup, clock: Clock)
    requires s.categories.Valid() && "categories" !in s.schema.collections
    ensures forall k :: 0 <= k < |DefaultCategories| ==>
      InitializeFrom(s, 3, NoFaults(), clock).categories.NameTaken(DefaultCategories[k].name)
  {
    var s' := EnsureCollection(s, "categories", Schema[3].1, NoFaults(), clock);
    assert InitializeFrom(s, 3, NoFaults(), clock) == InitializeFrom(s', 4, NoFaults(), clock);
    CreatingCategoriesSeeds(s, Schema[3].1, clock);
    forall k | 0 <= k < |DefaultCategories|
      ensures InitializeFrom(s', 4, NoFaults(), clock).categories.NameTaken(DefaultCategories[k].name)
    {
      NameTakenKept(s', 4, NoFaults(), clock, DefaultCategories[k].name);
    }
  }

  /** An entry before "categories" neither creates that collection nor touches
      the category store. */
  lemma EarlyEntryKeepsCategories(s: Setup, i: nat, clock: Clock)
    requires s.categories.Valid() && i < 3 && "categories" !in s.schema.collections
    ensures var s' := EnsureCollection(s, Schema[i].0, Schema[i].1, NoFaults(), clock);
      "categories" !in s'.schema.collections && s'.categories.Valid()
  {
    CategoriesEntry(i);
  }

  /** Up to the "categories" entry, a run that has not yet created that
      collection goes on to create it and seed every default. */
  lemma {:induction false} InitializeFromSeeds(s: Setup, i: nat, clock: Clock)
    requires s.categories.Valid() && i <= 3 && "categories" !in s.schema.collections
    ensures forall k :: 0 <= k < |DefaultCategories| ==>
      InitializeFrom(s, i, NoFaults(), clock).categories.NameTaken(DefaultCategories[k].name)
    decreases |Schema| - i
  {
    if i < 3 {
      var s' := EnsureCollection(s, Schema[i].0, Schema[i].1, NoFaults(), clock);
      assert InitializeFrom(s, i, NoFaults(), clock) == InitializeFrom(s', i + 1, NoFaults(), clock);
      EarlyEntryKeepsCategories(s, i, clock);
      InitializeFromSeeds(s', i + 1, clock);
    } else {
      SeedsAtCategoriesEntry(s, clock);
    }
  }

  /** `initialize_db` on a database without a "categories" collection, with
      nothing raising, leaves every default category name present. */
  lemma FreshDatabaseSeeded(s: Setup, clock: Clock)
    requires s.categories.Valid() && "categories" !in s.schema.collections
    ensures forall k :: 0 <= k < |DefaultCategories| ==>
      InitializeDb(s, NoFaults(), clock).categories.NameTaken(DefaultCategories[k].name)
  {
    InitializeFromSeeds(s, 0, clock);
  }

  /** A step whose entry is already in place changes nothing. */
  lemma EnsureCollectionNothingToDo(s: Setup, i: nat, faults: InitFaults, clock: Clock)
    requires s.categories.Valid() && i < |Schema| && EntryComplete(s.schema, i)
    ensures EnsureCollection(s, Schema[i].0, Schema[i].1, faults, clock) == s
  {
    var coll := Schema[i].0;
    assert s.schema.(collections := s.schema.collections + {coll}) == s.schema;
  }

  /** On a complete schema a run creates nothing and seeds nothing. */
  lemma {:induction false} InitializeFromNothingToDo(s: Setup, i: nat, faults: InitFaults, clock: Clock)
    requires s.categories.Valid()
    requires SchemaComplete(s.schema)
    ensures InitializeFrom(s, i, faults, clock) == s
    decreases |Schema| - i
  {
    if i < |Schema| {
      assert EntryComplete(s.schema, i);
      EnsureCollectionNothingToDo(s, i, faults, clock);
      InitializeFromNothingToDo(s, i + 1, faults, clock);
    }
  }

  /** Rerunning initialisation after a fault-free run creates no collection, no
      index and no category, whatever faults the rerun meets. */
  lemma InitializeIdempotent(s: Setup, clock: Clock, laterClock: Clock, faults: InitFaults)
    requires s.categories.Valid()
    ensures var once := InitializeDb(s, NoFaults(), clock);
      InitializeDb(once, faults, laterClock) == once
  {
    var once := InitializeDb(s, NoFaults(), clock);
    InitializeCompletes(s, clock);
    InitializeFromNothingToDo(once, 0, faults, laterClock);
  }
}

=== FILE: entities.dfy ===
/** The documents of the server's collections, as the handlers read and write
    them: employees keyed by their agent-supplied id, the activity_logs
    collection (activity and screenshot entries), categories keyed by an
    object id, and the category reference each categorisation rule holds. */
module Entities {
  import opened Common
  import opened Json
  import opened Calendar
  import opened Text

  datatype Status = PendingRename | Active | Inactive | Disabled

  /** One monitored endpoint. The display name is whatever value the heartbeat
      supplied as hostname, or a generated placeholder, or an admin's rename. */
  datatype Employee = Employee(
    employeeId: string,
    displayName: Value,
    status: Status,
    firstSeen: DateTime,
    lastSeen: DateTime,
    createdAt: DateTime,
    updatedAt: DateTime)

  /** The employees collection; the unique index on employee_id makes it a map. */
  type Employees = map<string, Employee>

  predicate KeysMatchIds(employees: Employees) {
    forall id :: id in employees ==> employees[id].employeeId == id
  }

  /** An entry of the activity_logs collection. Activity entries keep the
      batch's employee_id exactly as the agent sent it (any JSON value). */
  datatype LogDoc =
    | ActivityDoc(
        employeeId: Value,
        timestamp: DateTime,
        windowTitle: Value,
        processName: Value,
        startTime: DateTime,
        endTime: DateTime,
        durationSeconds: int,
        isActive: Value)
    | ScreenshotDoc(owner: string, timestamp: DateTime, screenshotPath: string)
  {
    function LogType(): string {
      if ActivityDoc? then "activity" else "screenshot"
    }

    /** The filter `{"employee_id": id}` with `id` a query-string value; a
        screenshot entry's `owner` is the employee_id form field. */
    predicate BelongsTo(id: string) {
      match this
      case ActivityDoc(e, _, _, _, _, _, _, _) => e == Str(id)
      case ScreenshotDoc(e, _, _) => e == id
    }
  }

  datatype Category = Category(
    name: string,
    description: string,
    color: string,
    isDefault: bool,
    isFallback: bool,
    createdAt: DateTime,
    updatedAt: DateTime)

  /** `ObjectId(text)` for a URL path segment: exactly 24 hexadecimal digits,
      otherwise the constructor raises. */
  function ParseObjectId(text: string): (r: Option<nat>)
    ensures r.Some? <==> |text| == 24 && AllHex(text)
    ensures r.Some? ==> r.value < Pow16(24)
  {
    if |text| == 24 && AllHex(text) then
      ParseHexBound(text);
      Some(ParseHex(text))
    else None
  }

  /** `str(oid)`: the 24 lower-case hex digits the templates put in URLs. */
  function ObjectIdText(id: nat): (s: string)
    requires id < Pow16(24)
    ensures |s| == 24
  {
    FormatHex(id, 24)
  }

  /** The id in a generated URL parses back to the same id. */
  lemma ObjectIdRoundTrip(id: nat)
    requires id < Pow16(24)
    ensures ParseObjectId(ObjectIdText(id)) == Some(id)
  {
    ParseFormatHex(id, 24);
  }

  /** The categories collection. Object ids are allocated in increasing order,
      so every stored id is below `nextId`. */
  datatype CategoryStore = CategoryStore(categories: map<nat, Category>, nextId: nat) {
    predicate Valid() {
      forall id :: id in categories ==> id < nextId
    }

    /** `count_documents({"name": name}) > 0`. */
    predicate NameTaken(name: string) {
      exists id :: id in categories && categories[id].name == name
    }

    /** `insert_one`: the new document gets a fresh id, nothing else changes. */
    function Insert(c: Category): (s: CategoryStore)
      requires Valid()
      ensures s.Valid()
      ensures s.categories == categories[nextId := c]
      ensures nextId !in categories
    {
      CategoryStore(categories[nextId := c], nextId + 1)
    }
  }

  /** Category names are unique (the unique index on name). */
  predicate UniqueNames(store: CategoryStore) {
    forall a, b :: a in store.categories && b in store.categories && a != b ==>
      store.categories[a].name != store.categories[b].name
  }

  /** The part of a categorisation rule the server code reads: its category. */
  datatype RuleRef = RuleRef(categoryId: nat)

  /** `count_documents({"category_id": id})` on the rules collection. */
  function RuleCount(rules: seq<RuleRef>, id: nat): (n: nat)
    ensures n <= |rules|
    ensures n == 0 <==> forall i :: 0 <= i < |rules| ==> rules[i].categoryId != id
  {
    if rules == [] then 0
    else RuleCount(rules[..|rules| - 1], id) + (if rules[|rules| - 1].categoryId == id then 1 else 0)
  }
}

=== FILE: json.dfy ===
/** Untyped request payloads: the values Python's json module produces, and the
    handful of Python operations the handlers apply to them (truthiness, dict.get,
    the int/float tests). */
module Json {

  import opened Common

  /** Python floats as the json module parses them: it accepts NaN and Infinity. */
  datatype Float = Finite(r: real) | NaN | PosInf | NegInf

  datatype Value =
    | Null
    | Bool(b: bool)
    | Int(i: int)
    | Float(f: Float)
    | Str(s: string)
    | Array(items: seq<Value>)
    | Object(fields: map<string, Value>)

  /** Python's `bool(v)`. */
  predicate Truthy(v: Value) {
    match v
    case Null => false
    case Bool(b) => b
    case Int(i) => i != 0
    case Float(f) => !(f.Finite? && f.r == 0.0)
    case Str(s) => s != ""
    case Array(xs) => xs != []
    case Object(m) => m != map[]
  }

  /** `isinstance(v, (int, float))`; bool is a subclass of int in Python. */
  predicate IsNumber(v: Value) {
    v.Bool? || v.Int? || v.Float?
  }

  /** `v < 0` for a number. NaN compares false with everything. */
  predicate IsNegative(v: Value)
    requires IsNumber(v)
  {
    match v
    case Bool(_) => false
    case Int(i) => i < 0
    case Float(f) => f.NegInf? || (f.Finite? && f.r < 0.0)
  }

  /** Python's `int(v)` for a non-negative number: truncation toward zero.
      `int(nan)` raises ValueError and `int(inf)` raises OverflowError: None. */
  function TruncateNonNegative(v: Value): (r: Option<nat>)
    requires IsNumber(v) && !IsNegative(v)
    ensures v.Int? ==> r == Some(v.i)
    ensures v.Bool? ==> r == Some(if v.b then 1 else 0)
    ensures v.Float? ==> (r.Some? <==> v.f.Finite?)
    ensures v.Float? && v.f.Finite? ==> r.Some? && r.value as real <= v.f.r < r.value as real + 1.0
  {
    match v
    case Bool(b) => Some(if b then 1 else 0)
    case Int(i) => Some(i)
    case Float(f) => if f.Finite? then Some(f.r.Floor) else None
  }

  /** `d.get(key, default)` on a dict: the default only when the key is absent. */
  function Get(fields: map<string, Value>, key: string, default: Value): (r: Value)
    ensures key in fields ==> r == fields[key]
    ensures key !in fields ==> r == default
  {
    if key in fields then fields[key] else default
  }
}

=== FILE: reports.dfy ===
/** server/routes/reports.py: the report date window, the paging arithmetic,
    the activity and screenshot listings, and the file-name guard of the
    screenshot viewer. `strptime('%Y-%m-%d')` is a parameter. */
module Reports {
  import opened Common
  import opened Text
  import opened Calendar
  import opened Entities
  import opened Api

  const ReportsPerPage: nat := 20
  const ScreenshotsPerPage: nat := 12

  // ---------------------------------------------------------------------------
  // Date window

  /** Both query dates are present and non-empty, both parse, and the end is
      not before the start. */
  predicate CustomRange(startStr: Option<string>, endStr: Option<string>, parseDate: string -> Option<ValidDate>) {
    && startStr.Some? && startStr.value != "" && endStr.Some? && endStr.value != ""
    && parseDate(startStr.value).Some? && parseDate(endStr.value).Some?
    && DayNumber(parseDate(endStr.value).value) >= DayNumber(parseDate(startStr.value).value)
  }

  /** `get_report_date_range`. The default window (six days before today up to
      today) is computed first; it overflows only when today is within six
      days of 0001-01-01, which is the None result. The window runs from
      00:00:00.000000 of its first day to 23:59:59.999999 of its last. */
  function ReportDateRange(startStr: Option<string>, endStr: Option<string>, now: UtcDateTime,
                           parseDate: string -> Option<ValidDate>): (r: Option<DayRange>)
    ensures r.None? <==> DayNumber(now.date) - 6 < MinDay
    ensures r.Some? ==> MinDay <= r.value.firstDay <= r.value.lastDay <= MaxDay
    ensures r.Some? && CustomRange(startStr, endStr, parseDate) ==>
      r.value == DayRange(DayNumber(parseDate(startStr.value).value), DayNumber(parseDate(endStr.value).value))
    ensures r.Some? && !CustomRange(startStr, endStr, parseDate) ==>
      r.value.lastDay == DayNumber(now.date) && r.value.lastDay - r.value.firstDay == 6
  {
    var today := DayNumber(now.date);
    DayNumberBounds(now.date);
    if today - 6 < MinDay then None
    else if CustomRange(startStr, endStr, parseDate) then
      DayNumberBounds(parseDate(startStr.value).value);
      DayNumberBounds(parseDate(endStr.value).value);
      Some(DayRange(DayNumber(parseDate(startStr.value).value), DayNumber(parseDate(endStr.value).value)))
    else Some(DayRange(today - 6, today))
  }

  /** A stored timestamp lies inside the window (both ends inclusive). */
  predicate InWindow(t: DateTime, window: DayRange) {
    1 <= t.date.month <= 12 && window.Start() <= UtcMicros(t) <= window.End()
  }

  // ---------------------------------------------------------------------------
  // Paging

  /** `(page - 1) * per_page`; negative for a page below 1. */
  function SkipCount(page: int, perPage: nat): int {
    (page - 1) * perPage
  }

  /** `(total + per_page - 1) // per_page`. */
  function TotalPages(total: nat, perPage: nat): (r: nat)
    requires perPage > 0
    ensures r == 0 <==> total == 0
    ensures r * perPage >= total
    ensures total > 0 ==> (r - 1) * perPage < total
  {
    var n := total + perPage - 1;
    var q := n / perPage;
    assert n == q * perPage + n % perPage;
    q
  }

  /** Every entry of a listing sits on exactly one page of the pager: entry i
      is on page i / per_page + 1, a page the pager offers. */
  lemma {:induction false} EntryPage(i: nat, total: nat, perPage: nat)
    requires perPage > 0 && i < total
    ensures var p := i / perPage + 1;
      && 1 <= p <= TotalPages(total, perPage)
      && SkipCount(p, perPage) <= i < SkipCount(p, perPage) + perPage
  {
    var p := i / perPage + 1;
    var t := TotalPages(total, perPage);
    assert i == (p - 1) * perPage + i % perPage;
    assert SkipCount(p, perPage) == (p - 1) * perPage;
  }

  /** The skip is non-negative exactly for pages from 1 on. */
  lemma SkipSign(page: int, perPage: nat)
    requires perPage > 0
    ensures SkipCount(page, perPage) >= 0 <==> page >= 1
  {
    if page < 1 {
      assert (page - 1) * perPage <= -1 * perPage;
    }
  }

  // ---------------------------------------------------------------------------
  // Listings

  /** The entries a query filter keeps, in stored order. */
  function Select(logs: seq<LogDoc>, keep: LogDoc -> bool): (r: seq<LogDoc>)
    ensures |r| <= |logs|
    ensures forall i :: 0 <= i < |r| ==> keep(r[i]) && r[i] in logs
    ensures forall i :: 0 <= i < |logs| && keep(logs[i]) ==> logs[i] in r
    decreases |logs|
  {
    if logs == [] then []
    else
      var last := logs[|logs| - 1];
      Select(logs[..|logs| - 1], keep) + (if keep(last) then [last] else [])
  }

  /** How many documents `.skip(skip).limit(per_page)` yields out of `total`:
      `min(per_page, max(0, total - skip))`. */
  function PageSize(total: nat, skip: int, perPage: nat): nat {
    if total <= skip then 0 else if total - skip < perPage then total - skip else perPage
  }

  /** `.skip(skip).limit(per_page)`; pymongo refuses a negative skip with
      ValueError, the None result. */
  function Window(items: seq<LogDoc>, skip: int, perPage: nat): (r: Option<seq<LogDoc>>)
    ensures r.None? <==> skip < 0
    ensures r.Some? ==> |r.value| == PageSize(|items|, skip, perPage)
    ensures r.Some? ==> forall i :: 0 <= i < |r.value| ==> skip + i < |items| && r.value[i] == items[skip + i]
  {
    if skip < 0 then None
    else if skip >= |items| then Some([])
    else if skip + perPage >= |items| then Some(items[skip..])
    else Some(items[skip..skip + perPage])
  }

  /** Which query raises inside the handler's try block. */
  datatype ReportFault = QueryOk | CountRaises | FindRaises

  datatype Report = Report(items: seq<LogDoc>, total: nat, totalPages: nat)

  /** The shared body of both listings: nothing is queried without a selected
      employee; a raising count leaves the total at 0; a raising find (or a
      negative skip) leaves the items empty but keeps the counted total. */
  function Listing(logs: seq<LogDoc>, selected: Option<string>, keep: LogDoc -> bool, page: int, perPage: nat,
                   fault: ReportFault): (r: Report)
    requires perPage > 0
    ensures selected.None? || selected.value == "" ==> r == Report([], 0, 0)
    ensures r.totalPages == TotalPages(r.total, perPage)
    ensures |r.items| <= perPage
    ensures forall i :: 0 <= i < |r.items| ==> keep(r.items[i]) && r.items[i] in logs
    ensures r.items != [] ==> fault == QueryOk
    ensures r.items != [] ==> page >= 1
    ensures selected.Some? && selected.value != "" && fault != CountRaises ==> r.total == |Select(logs, keep)|
    ensures selected.Some? && selected.value != "" && fault == QueryOk && page >= 1 ==>
      && Window(Select(logs, keep), SkipCount(page, perPage), perPage) == Some(r.items)
      && |r.items| == PageSize(r.total, SkipCount(page, perPage), perPage)
  {
    if selected.None? || selected.value == "" then Report([], 0, 0)
    else if fault == CountRaises then Report([], 0, 0)
    else
      var matching := Select(logs, keep);
      var total := |matching|;
      SkipSign(page, perPage);
      var window := Window(matching, SkipCount(page, perPage), perPage);
      var items := if fault == QueryOk && window.Some? then window.value else [];
      Report(items, total, TotalPages(total, perPage))
  }

  /** Entry i of a listing is at offset i mod per_page of its page. */
  lemma OffsetOnPage(i: nat, perPage: nat)
    requires perPage > 0
    ensures SkipCount(i / perPage + 1, perPage) + i % perPage == i
  {
    assert SkipCount(i / perPage + 1, perPage) == (i / perPage) * perPage;
  }

  /** A window starting at or before entry j and reaching past it holds j. */
  lemma WindowHolds(items: seq<LogDoc>, skip: int, perPage: nat, j: nat)
    requires 0 <= skip <= j < skip + perPage && j < |items|
    ensures Window(items, skip, perPage).Some?
    ensures j - skip < |Window(items, skip, perPage).value|
    ensures Window(items, skip, perPage).value[j - skip] == items[j]
  {
  }

  /** Every matching entry is listed: entry i of the matches appears on page
      i / per_page + 1, which the pager offers, at offset i mod per_page. */
  lemma EveryMatchListed(logs: seq<LogDoc>, selected: string, keep: LogDoc -> bool, perPage: nat, i: nat)
    requires perPage > 0 && selected != ""
    requires i < |Select(logs, keep)|
    ensures var p := i / perPage + 1;
      var r := Listing(logs, Some(selected), keep, p, perPage, QueryOk);
      && 1 <= p <= r.totalPages
      && i % perPage < |r.items|
      && r.items[i % perPage] == Select(logs, keep)[i]
  {
    var matches := Select(logs, keep);
    var p := i / perPage + 1;
    var skip := SkipCount(p, perPage);
    EntryPage(i, |matches|, perPage);
    OffsetOnPage(i, perPage);
    WindowHolds(matches, skip, perPage, i);
    var r := Listing(logs, Some(selected), keep, p, perPage, QueryOk);
    assert Window(matches, skip, perPage) == Some(r.items);
    assert i - skip == i % perPage;
  }

  /** The activity report's filter: the employee, the window, and not a screenshot. */
  predicate ActivityMatch(d: LogDoc, id: string, window: DayRange) {
    d.BelongsTo(id) && d.LogType() != "screenshot" && InWindow(d.timestamp, window)
  }

  /** The screenshot report's filter: the employee, the window, log_type
      "screenshot" and a screenshot_path. */
  predicate ScreenshotMatch(d: LogDoc, id: string, window: DayRange) {
    d.BelongsTo(id) && d.LogType() == "screenshot" && d.ScreenshotDoc? && InWindow(d.timestamp, window)
  }

  /** The activity report's query filter as a predicate on documents. */
  function ActivityFilter(id: string, window: DayRange): LogDoc -> bool {
    d => ActivityMatch(d, id, window)
  }

  /** The screenshot report's query filter as a predicate on documents. */
  function ScreenshotFilter(id: string, window: DayRange): LogDoc -> bool {
    d => ScreenshotMatch(d, id, window)
  }

  /** `activity_log_report`; None when the date window overflows. */
  function ActivityLogReport(logs: seq<LogDoc>, selected: Option<string>, startStr: Option<string>,
                             endStr: Option<string>, page: int, now: UtcDateTime,
                             parseDate: string -> Option<ValidDate>, fault: ReportFault): (r: Option<Report>)
    ensures r.None? <==> ReportDateRange(startStr, endStr, now, parseDate).None?
    ensures r.Some? ==>
      var window := ReportDateRange(startStr, endStr, now, parseDate).value;
      && |r.value.items| <= ReportsPerPage
      && r.value.totalPages == TotalPages(r.value.total, ReportsPerPage)
      && (selected.None? || selected.value == "" ==> r.value.total == 0 && r.value.items == [])
      && (forall i :: 0 <= i < |r.value.items| ==>
            r.value.items[i].ActivityDoc? && ActivityMatch(r.value.items[i], selected.value, window))
      && (selected.Some? && selected.value != "" && fault != CountRaises ==>
            r.value.total == |Select(logs, ActivityFilter(selected.value, window))|)
      && (selected.Some? && selected.value != "" && fault == QueryOk && page >= 1 ==>
            |r.value.items| == PageSize(r.value.total, SkipCount(page, ReportsPerPage), ReportsPerPage))
  {
    var window := ReportDateRange(startStr, endStr, now, parseDate);
    if window.None? then None
    else
      Some(Listing(logs, selected, ActivityFilter(selected.GetOr(""), window.value), page, ReportsPerPage, fault))
  }

  /** `screenshot_report`; None when the date window overflows. */
  function ScreenshotReport(logs: seq<LogDoc>, selected: Option<string>, startStr: Option<string>,
                            endStr: Option<string>, page: int, now: UtcDateTime,
                            parseDate: string -> Option<ValidDate>, fault: ReportFault): (r: Option<Report>)
    ensures r.None? <==> ReportDateRange(startStr, endStr, now, parseDate).None?
    ensures r.Some? ==>
      var window := ReportDateRange(startStr, endStr, now, parseDate).value;
      && |r.value.items| <= ScreenshotsPerPage
      && r.value.totalPages == TotalPages(r.value.total, ScreenshotsPerPage)
      && (selected.None? || selected.value == "" ==> r.value.total == 0 && r.value.items == [])
      && (forall i :: 0 <= i < |r.value.items| ==>
            r.value.items[i].ScreenshotDoc? && ScreenshotMatch(r.value.items[i], selected.value, window))
      && (selected.Some? && selected.value != "" && fault != CountRaises ==>
            r.value.total == |Select(logs, ScreenshotFilter(selected.value, window))|)
      && (selected.Some? && selected.value != "" && fault == QueryOk && page >= 1 ==>
            |r.value.items| == PageSize(r.value.total, SkipCount(page, ScreenshotsPerPage), ScreenshotsPerPage))
  {
    var window := ReportDateRange(startStr, endStr, now, parseDate);
    if window.None? then None
    else
      Some(Listing(logs, selected, ScreenshotFilter(selected.GetOr(""), window.value), page, ScreenshotsPerPage, fault))
  }

  /** The two reports never share an entry. */
  lemma ReportsDisjoint(d: LogDoc, id: string, window: DayRange)
    ensures !(ActivityMatch(d, id, window) && ScreenshotMatch(d, id, window))
  {
  }

  // ---------------------------------------------------------------------------
  // Screenshot viewer

  /** The guard of `view_screenshot`: no "..", no leading "/" or "\",
      no NUL character. */
  predicate SafeScreenshotName(name: string) {
    !Contains(name, "..") && !StartsWith(name, "/") && !StartsWith(name, "\\") && !Contains(name, "\0")
  }

  /** The guard rejects exactly the names with ".." or NUL anywhere or a
      leading separator. */
  lemma SafeNameMeaning(name: string)
    ensures SafeScreenshotName(name) <==>
      && (forall i :: !OccursAt(name, "..", i))
      && (forall i :: 0 <= i < |name| ==> name[i] != '\0')
      && (name != [] ==> name[0] != '/' && name[0] != '\\')
  {
    ContainsIffOccurs(name, "..");
    ContainsIffOccurs(name, "\0");
    if exists i :: 0 <= i < |name| && name[i] == '\0' {
      var i :| 0 <= i < |name| && name[i] == '\0';
      assert OccursAt(name, "\0", i);
    }
    if exists i :: OccursAt(name, "\0", i) {
      var i :| OccursAt(name, "\0", i);
      assert name[i] == name[i..i + 1][0];
    }
  }

  /** An activity_logs entry of type screenshot with this path exists. */
  predicate HasScreenshotRecord(logs: seq<LogDoc>, name: string) {
    exists i :: 0 <= i < |logs| && logs[i].ScreenshotDoc? && logs[i].screenshotPath == name
  }

  datatype ViewOutcome = NotFound404 | Served(content: seq<bv8>)

  /** `view_screenshot`: a name that fails the guard, has no record, or has no
      file is a 404; otherwise the stored file is served. */
  function ViewScreenshot(name: string, logs: seq<LogDoc>, blobs: map<string, seq<bv8>>): (r: ViewOutcome)
    ensures r.Served? <==> SafeScreenshotName(name) && HasScreenshotRecord(logs, name) && name in blobs
    ensures r.Served? ==> r.content == blobs[name]
  {
    if !SafeScreenshotName(name) then NotFound404
    else if !HasScreenshotRecord(logs, name) then NotFound404
    else if name !in blobs then NotFound404
    else Served(blobs[name])
  }

  /** When every record is backed by a file, every recorded name that passes
      the guard is served. */
  lemma RecordedScreenshotsServed(st: Store, i: nat)
    requires RecordsBacked(st)
    requires i < |st.logs| && st.logs[i].ScreenshotDoc? && SafeScreenshotName(st.logs[i].screenshotPath)
    ensures ViewScreenshot(st.logs[i].screenshotPath, st.logs, st.blobs) == Served(st.blobs[st.logs[i].screenshotPath])
  {
  }

  /** Every character of the stamp is a digit or an underscore. */
  lemma StampChars(t: ValidDateTime)
    ensures forall i :: 0 <= i < |StampText(t)| ==> IsDigit(StampText(t)[i]) || StampText(t)[i] == '_'
  {
    StampRoundTrip(t);
    var s := StampText(t);
    forall i | 0 <= i < |s|
      ensures IsDigit(s[i]) || s[i] == '_'
    {
      if i < 4 { assert s[i] == s[0..4][i]; }
      else if i < 6 { assert s[i] == s[4..6][i - 4]; }
      else if i < 8 { assert s[i] == s[6..8][i - 6]; }
      else if i == 8 { }
      else if i < 11 { assert s[i] == s[9..11][i - 9]; }
      else if i < 13 { assert s[i] == s[11..13][i - 11]; }
      else if i < 15 { assert s[i] == s[13..15][i - 13]; }
      else if i == 15 { }
      else { assert s[i] == s[16..22][i - 16]; }
    }
  }

  /** Outside its ".png" ending a generated key holds no '.' and no NUL, as
      long as `isalnum` accepts neither; it starts with a digit. */
  lemma KeyCharacters(t: ValidDateTime, id: string, isAlnum: char -> bool, suffix: HexSuffix)
    requires id != "" && !isAlnum('.') && !isAlnum('\0')
    ensures var k := ScreenshotKey(t, id, isAlnum, suffix);
      && |k| > 4 && IsDigit(k[0]) && k[|k| - 4..] == ".png"
      && forall i :: 0 <= i < |k| - 4 ==> k[i] != '.' && k[i] != '\0'
  {
    var k := ScreenshotKey(t, id, isAlnum, suffix);
    var stamp := StampText(t);
    ScreenshotKeyShape(t, id, isAlnum, suffix);
    StampChars(t);
    assert k[0] == k[..StampLength][0] == stamp[0];
    KeyLayoutChars(k, stamp, SanitizeId(id, isAlnum), suffix, isAlnum);
  }

  /** The character argument of `KeyCharacters`, over the key's columns. */
  lemma KeyLayoutChars(k: string, stamp: string, safe: string, suffix: string, isAlnum: char -> bool)
    requires |stamp| == StampLength && |suffix| == 8 && |k| == StampLength + |safe| + 14
    requires k[..StampLength] == stamp && k[StampLength] == '_'
    requires k[StampLength + 1..StampLength + 1 + |safe|] == safe && k[StampLength + 1 + |safe|] == '_'
    requires k[StampLength + 2 + |safe|..|k| - 4] == suffix
    requires forall i :: 0 <= i < |stamp| ==> IsDigit(stamp[i]) || stamp[i] == '_'
    requires forall i :: 0 <= i < |safe| ==> SafeChar(safe[i], isAlnum)
    requires forall i :: 0 <= i < |suffix| ==> IsLowerHex(suffix[i])
    requires !isAlnum('.') && !isAlnum('\0')
    ensures forall i :: 0 <= i < |k| - 4 ==> k[i] != '.' && k[i] != '\0'
  {
    forall i | 0 <= i < |k| - 4
      ensures k[i] != '.' && k[i] != '\0'
    {
      if i < StampLength {
        assert k[i] == k[..StampLength][i];
      } else if i == StampLength {
      } else if i < StampLength + 1 + |safe| {
        assert k[i] == k[StampLength + 1..StampLength + 1 + |safe|][i - StampLength - 1];
        assert SafeChar(safe[i - StampLength - 1], isAlnum);
      } else if i == StampLength + 1 + |safe| {
      } else {
        assert k[i] == k[StampLength + 2 + |safe|..|k| - 4][i - StampLength - 2 - |safe|];
        assert IsLowerHex(suffix[i - StampLength - 2 - |safe|]);
      }
    }
  }

  /** Every key the upload handler generates passes the viewer's guard, so an
      uploaded screenshot can be viewed. */
  lemma GeneratedKeysPassGuard(t: ValidDateTime, id: string, isAlnum: char -> bool, suffix: HexSuffix)
    requires id != "" && !isAlnum('.') && !isAlnum('\0')
    ensures SafeScreenshotName(ScreenshotKey(t, id, isAlnum, suffix))
  {
    var k := ScreenshotKey(t, id, isAlnum, suffix);
    KeyCharacters(t, id, isAlnum, suffix);
    NoDoubleDot(k);
    forall i | 0 <= i < |k|
      ensures k[i] != '\0'
    {
      if i >= |k| - 4 {
        assert k[i] == k[|k| - 4..][i - (|k| - 4)];
      }
    }
    SafeNameMeaning(k);
  }

  /** A name whose only dot is the one of its ".png" ending has no "..". */
  lemma NoDoubleDot(k: string)
    requires |k| > 4 && k[|k| - 4..] == ".png"
    requires forall i :: 0 <= i < |k| - 4 ==> k[i] != '.'
    ensures forall i :: !OccursAt(k, "..", i)
  {
    forall i
      ensures !OccursAt(k, "..", i)
    {
      if 0 <= i <= |k| - 2 {
        if i < |k| - 4 {
          assert k[i..i + 2][0] == k[i];
        } else {
          assert k[i..i + 2][1] == k[i + 1] == k[|k| - 4..][i + 1 - (|k| - 4)];
        }
      }
    }
  }
}

=== FILE: text.dfy ===
/** String helpers the handlers rely on: decimal rendering with zero padding
    (f-string `:02d`, strftime fields, `str(int)`), Python's `str.strip()` and
    substring tests. */
module Text {

  predicate IsDigit(c: char) {
    '0' <= c <= '9'
  }

  predicate AllDigits(s: string) {
    forall i :: 0 <= i < |s| ==> IsDigit(s[i])
  }

  function DigitChar(d: nat): (c: char)
    requires d < 10
    ensures IsDigit(c)
  {
    "0123456789"[d]
  }

  function DigitValue(c: char): nat
    requires IsDigit(c)
  {
    (c as int) - ('0' as int)
  }

  lemma DigitRoundTrip(d: nat)
    requires d < 10
    ensures DigitValue(DigitChar(d)) == d
  {
  }

  /** The decimal rendering of a natural number, without leading zeros. */
  function NatToString(n: nat): (s: string)
    ensures |s| >= 1 && AllDigits(s)
    ensures n < 10 <==> |s| == 1
    decreases n
  {
    if n < 10 then [DigitChar(n)] else NatToString(n / 10) + [DigitChar(n % 10)]
  }

  /** The value of a string of decimal digits, most significant first. */
  function ParseDigits(s: string): nat
    requires AllDigits(s)
  {
    if |s| == 0 then 0 else ParseDigits(s[..|s| - 1]) * 10 + DigitValue(s[|s| - 1])
  }

  /** Rendering then reading a number gives it back. */
  lemma {:induction false} ParseNatToString(n: nat)
    ensures ParseDigits(NatToString(n)) == n
    decreases n
  {
    var s := NatToString(n);
    if n < 10 {
      DigitRoundTrip(n);
    } else {
      ParseNatToString(n / 10);
      assert s[..|s| - 1] == NatToString(n / 10);
      DigitRoundTrip(n % 10);
    }
  }

  function Repeat(c: char, k: nat): (r: string)
    ensures |r| == k
    ensures forall i :: 0 <= i < k ==> r[i] == c
  {
    if k == 0 then "" else [c] + Repeat(c, k - 1)
  }

  function Pow10(k: nat): (p: nat)
    ensures p >= 1
  {
    if k == 0 then 1 else 10 * Pow10(k - 1)
  }

  /** A number below 10^k has at most k digits. */
  lemma {:induction false} NatToStringLength(n: nat, k: nat)
    requires 1 <= k && n < Pow10(k)
    ensures |NatToString(n)| <= k
    decreases k
  {
    if n >= 10 {
      assert k >= 2;
      NatToStringLength(n / 10, k - 1);
    }
  }

  /** `n` in decimal, left-padded with zeros to at least `width` characters
      (the `%0Nd` / `{:0Nd}` conversions). */
  function ZeroPad(n: nat, width: nat): (s: string)
    ensures AllDigits(s)
    ensures |s| >= width
    ensures |s| == if |NatToString(n)| >= width then |NatToString(n)| else width
  {
    var digits := NatToString(n);
    if |digits| >= width then digits else Repeat('0', width - |digits|) + digits
  }

  lemma {:induction false} LeadingZerosIgnored(zeros: string, s: string)
    requires AllDigits(s)
    requires forall i :: 0 <= i < |zeros| ==> zeros[i] == '0'
    ensures AllDigits(zeros + s)
    ensures ParseDigits(zeros + s) == ParseDigits(s)
    decreases |s|
  {
    if |s| == 0 {
      assert zeros + s == zeros;
      AllZerosParseToZero(zeros);
    } else {
      var t := zeros + s;
      assert t[..|t| - 1] == zeros + s[..|s| - 1];
      LeadingZerosIgnored(zeros, s[..|s| - 1]);
    }
  }

  lemma {:induction false} AllZerosParseToZero(zeros: string)
    requires forall i :: 0 <= i < |zeros| ==> zeros[i] == '0'
    ensures AllDigits(zeros)
    ensures ParseDigits(zeros) == 0
    decreases |zeros|
  {
    if |zeros| > 0 {
      AllZerosParseToZero(zeros[..|zeros| - 1]);
    }
  }

  /** A number below 10^width pads to exactly `width` characters. */
  lemma ZeroPadWidth(n: nat, width: nat)
    requires 1 <= width && n < Pow10(width)
    ensures |ZeroPad(n, width)| == width
  {
    NatToStringLength(n, width);
  }

  /** Zero padding never changes the value a reader recovers. */
  lemma ParseZeroPad(n: nat, width: nat)
    ensures ParseDigits(ZeroPad(n, width)) == n
  {
    var digits := NatToString(n);
    ParseNatToString(n);
    if |digits| < width {
      LeadingZerosIgnored(Repeat('0', width - |digits|), digits);
    }
  }

  /** `str(i)` for any Python int. */
  function IntToString(i: int): (s: string)
    ensures |s| >= 1
    ensures i >= 0 ==> AllDigits(s) && ParseDigits(s) == i
    ensures i < 0 ==> s[0] == '-' && AllDigits(s[1..]) && ParseDigits(s[1..]) == -i
  {
    ParseNatToString(if i >= 0 then i else -i);
    if i >= 0 then NatToString(i) else "-" + NatToString(-i)
  }

  /** A hexadecimal digit in either case, as `bytes.fromhex` accepts it. */
  predicate IsHexDigit(c: char) {
    ('0' <= c <= '9') || ('a' <= c <= 'f') || ('A' <= c <= 'F')
  }

  predicate IsLowerHex(c: char) {
    ('0' <= c <= '9') || ('a' <= c <= 'f')
  }

  predicate AllHex(s: string) {
    forall i :: 0 <= i < |s| ==> IsHexDigit(s[i])
  }

  function HexValue(c: char): (d: nat)
    requires IsHexDigit(c)
    ensures d < 16
  {
    if c <= '9' then (c as int) - ('0' as int)
    else if c <= 'F' then (c as int) - ('A' as int) + 10
    else (c as int) - ('a' as int) + 10
  }

  function HexChar(d: nat): (c: char)
    requires d < 16
    ensures IsLowerHex(c) && IsHexDigit(c) && HexValue(c) == d
  {
    "0123456789abcdef"[d]
  }

  function Pow16(k: nat): (p: nat)
    ensures p >= 1
  {
    if k == 0 then 1 else 16 * Pow16(k - 1)
  }

  /** `n` as exactly `width` lower-case hexadecimal digits (high digits dropped). */
  function FormatHex(n: nat, width: nat): (s: string)
    ensures |s| == width
    ensures forall i :: 0 <= i < |s| ==> IsLowerHex(s[i]) && IsHexDigit(s[i])
  {
    if width == 0 then "" else FormatHex(n / 16, width - 1) + [HexChar(n % 16)]
  }

  /** The value of a string of hexadecimal digits, most significant first. */
  function ParseHex(s: string): nat
    requires AllHex(s)
  {
    if s == [] then 0 else ParseHex(s[..|s| - 1]) * 16 + HexValue(s[|s| - 1])
  }

  /** Formatting to enough digits and parsing back gives the number. */
  lemma {:induction false} ParseFormatHex(n: nat, width: nat)
    requires n < Pow16(width)
    ensures ParseHex(FormatHex(n, width)) == n
    decreases width
  {
    if width > 0 {
      var s := FormatHex(n, width);
      assert s[..|s| - 1] == FormatHex(n / 16, width - 1);
      ParseFormatHex(n / 16, width - 1);
    }
  }

  /** A string of k hexadecimal digits denotes a number below 16^k. */
  lemma {:induction false} ParseHexBound(s: string)
    requires AllHex(s)
    ensures ParseHex(s) < Pow16(|s|)
    decreases |s|
  {
    if s != [] {
      ParseHexBound(s[..|s| - 1]);
    }
  }

  /** The characters for which Python's `str.isspace()` is true; `str.strip()`
      with no argument removes exactly these from both ends. */
  predicate IsSpace(c: char) {
    || ('\t' <= c <= '\r')
    || ('\U{1C}' <= c <= '\U{1F}')
    || c == ' ' || c == '\U{85}' || c == '\U{A0}' || c == '\U{1680}'
    || ('\U{2000}' <= c <= '\U{200A}')
    || c == '\U{2028}' || c == '\U{2029}' || c == '\U{202F}' || c == '\U{205F}' || c == '\U{3000}'
  }

  /** Every character of `s` is whitespace. */
  predicate AllSpace(s: string) {
    forall i :: 0 <= i < |s| ==> IsSpace(s[i])
  }

  /** The first index at or after `i` that holds no whitespace (|s| if none). */
  function SkipSpaces(s: string, i: nat): (k: nat)
    requires i <= |s|
    ensures i <= k <= |s|
    ensures forall j :: i <= j < k ==> IsSpace(s[j])
    ensures k < |s| ==> !IsSpace(s[k])
    decreases |s| - i
  {
    if i < |s| && IsSpace(s[i]) then SkipSpaces(s, i + 1) else i
  }

  /** The end of `s[lo..hi]` once trailing whitespace is dropped. */
  function DropSpaces(s: string, lo: nat, hi: nat): (e: nat)
    requires lo <= hi <= |s|
    ensures lo <= e <= hi
    ensures forall j :: e <= j < hi ==> IsSpace(s[j])
    ensures e > lo ==> !IsSpace(s[e - 1])
    decreases hi - lo
  {
    if hi > lo && IsSpace(s[hi - 1]) then DropSpaces(s, lo, hi - 1) else hi
  }

  /** The number of whitespace characters `strip()` removes from the front. */
  function LeadingSpaces(s: string): (n: nat)
    ensures n <= |s|
    ensures AllSpace(s[..n])
  {
    var n := SkipSpaces(s, 0);
    assert forall j :: 0 <= j < n ==> s[..n][j] == s[j];
    n
  }

  /** Python's `s.strip()`: the middle of `s` between whitespace-only ends,
      beginning and ending with a non-space, empty exactly when `s` is all
      whitespace. */
  function Strip(s: string): (r: string)
    ensures LeadingSpaces(s) + |r| <= |s| && r == s[LeadingSpaces(s)..LeadingSpaces(s) + |r|]
    ensures AllSpace(s[LeadingSpaces(s) + |r|..])
    ensures r != [] ==> !IsSpace(r[0]) && !IsSpace(r[|r| - 1])
    ensures r == [] <==> AllSpace(s)
  {
    var k := SkipSpaces(s, 0);
    var e := DropSpaces(s, k, |s|);
    assert forall j :: 0 <= j < |s| - e ==> s[e..][j] == s[e + j];
    assert k < |s| ==> k < e;
    s[k..e]
  }

  /** Stripping is idempotent. */
  lemma StripIdempotent(s: string)
    ensures Strip(Strip(s)) == Strip(s)
  {
    var r := Strip(s);
    if r != [] {
      assert SkipSpaces(r, 0) == 0;
      assert DropSpaces(r, 0, |r|) == |r|;
      assert r[0..|r|] == r;
    }
  }

  predicate StartsWith(s: string, prefix: string) {
    |prefix| <= |s| && s[..|prefix|] == prefix
  }

  /** Python's `pattern in s` for a non-empty pattern. */
  predicate Contains(s: string, pattern: string)
    decreases |s|
  {
    StartsWith(s, pattern) || (s != [] && Contains(s[1..], pattern))
  }

  predicate OccursAt(s: string, pattern: string, i: int) {
    0 <= i <= |s| - |pattern| && s[i..i + |pattern|] == pattern
  }

  /** `pattern in s` holds exactly when the pattern occurs at some position. */
  lemma {:induction false} ContainsIffOccurs(s: string, pattern: string)
    ensures Contains(s, pattern) <==> exists i :: OccursAt(s, pattern, i)
    decreases |s|
  {
    if StartsWith(s, pattern) {
      assert OccursAt(s, pattern, 0);
    }
    if s != [] {
      ContainsIffOccurs(s[1..], pattern);
      if Contains(s[1..], pattern) {
        var i :| OccursAt(s[1..], pattern, i);
        assert s[i + 1..i + 1 + |pattern|] == s[1..][i..i + |pattern|];
        assert OccursAt(s, pattern, i + 1);
      }
      if exists i :: OccursAt(s, pattern, i) {
        var i :| OccursAt(s, pattern, i);
        if i > 0 {
          assert s[1..][i - 1..i - 1 + |pattern|] == s[i..i + |pattern|];
          assert OccursAt(s[1..], pattern, i - 1);
        } else {
          assert StartsWith(s, pattern);
        }
      }
    } else {
      if exists i :: OccursAt(s, pattern, i) {
        var i :| OccursAt(s, pattern, i);
        assert StartsWith(s, pattern);
      }
    }
  }

  /** The pieces of a concatenation sit at their offsets. */
  lemma Concat3(a: string, b: string, c: string)
    ensures var s := a + b + c;
      s[..|a|] == a && s[|a|..|a| + |b|] == b && s[|a| + |b|..] == c
  {
  }

  lemma Concat5(a: string, b: string, c: string, d: string, e: string)
    ensures var s := a + b + c + d + e;
      && s[..|a|] == a
      && s[|a|..|a| + |b|] == b
      && s[|a| + |b|..|a| + |b| + |c|] == c
      && s[|a| + |b| + |c|..|a| + |b| + |c| + |d|] == d
      && s[|a| + |b| + |c| + |d|..] == e
  {
  }

  /** A zero-padded field of a value below 10^width reads back as that value. */
  lemma PaddedField(n: nat, width: nat)
    requires 1 <= width && n < Pow10(width)
    ensures |ZeroPad(n, width)| == width && AllDigits(ZeroPad(n, width)) && ParseDigits(ZeroPad(n, width)) == n
  {
    ZeroPadWidth(n, width);
    ParseZeroPad(n, width);
  }
}

=== FILE: users.dfy ===
/** server/routes/users.py: the pending/other split of the user list and the
    rename that activates an employee. */
module Users {
  import opened Common
  import opened Json
  import opened Entities

  /** `list_users`: the employees awaiting a rename and all the others. */
  function ListUsers(employees: Employees): (r: (set<string>, set<string>))
    ensures r.0 !! r.1
    ensures r.0 + r.1 == employees.Keys
    ensures forall id :: id in r.0 <==> id in employees && employees[id].status == PendingRename
    ensures |r.0| + |r.1| == |employees|
  {
    var pending := set id | id in employees && employees[id].status == PendingRename;
    var others := set id | id in employees && employees[id].status != PendingRename;
    assert pending + others == employees.Keys;
    DisjointCardinality(pending, others);
    (pending, others)
  }

  lemma DisjointCardinality(a: set<string>, b: set<string>)
    requires a !! b
    ensures |a + b| == |a| + |b|
  {
  }

  datatype RenameNotice = NotFound | ShowForm | InvalidName | Renamed | DbError

  /** `rename_user`. A GET, or a POST with a missing name or one shorter than
      two characters, changes nothing; `updateRaises` stands for an exception
      from `update_one`. */
  function RenameUser(employees: Employees, employeeId: string, isPost: bool, newName: Option<string>,
                      updateRaises: bool): (r: (RenameNotice, Employees))
    ensures r.0 == NotFound <==> employeeId !in employees
    ensures r.0 != Renamed ==> r.1 == employees
    ensures r.0 == Renamed <==>
      employeeId in employees && isPost && newName.Some? && |newName.value| >= 2 && !updateRaises
    ensures r.0 == Renamed ==>
      && r.1.Keys == employees.Keys
      && (forall id :: id in employees && id != employeeId ==> r.1[id] == employees[id])
      && r.1[employeeId] == employees[employeeId].(displayName := Str(newName.value), status := Active)
  {
    if employeeId !in employees then (NotFound, employees)
    else if !isPost then (ShowForm, employees)
    else if newName.None? || newName.value == "" || |newName.value| < 2 then (InvalidName, employees)
    else if updateRaises then (DbError, employees)
    else
      var e := employees[employeeId];
      (Renamed, employees[employeeId := e.(displayName := Str(newName.value), status := Active)])
  }

  /** A successful rename moves the employee from the pending set to the others
      and leaves everyone else where they were. */
  lemma RenameLeavesPending(employees: Employees, employeeId: string, newName: string)
    requires employeeId in employees && |newName| >= 2
    ensures var after := RenameUser(employees, employeeId, true, Some(newName), false).1;
      && employeeId !in ListUsers(after).0
      && employeeId in ListUsers(after).1
      && ListUsers(after).0 == ListUsers(employees).0 - {employeeId}
  {
  }

  /** Renaming keeps every document filed under its own id. */
  lemma RenameKeepsKeys(employees: Employees, employeeId: string, isPost: bool, newName: Option<string>,
                        updateRaises: bool)
    requires KeysMatchIds(employees)
    ensures KeysMatchIds(RenameUser(employees, employeeId, isPost, newName, updateRaises).1)
  {
  }
}
